=== FILE: README.md ===
# Cozy Weather, modelled in Dafny

Cozy Weather is a small weather web application. It searches a place by
name or takes the device's position, fetches the Open-Meteo forecast, and
shows the current conditions through a weather icon, an animated
background, a cat or rabbit mascot and an outfit recommendation. It also
shows an hourly strip and the coming days, keeps a list of favorite places,
and asks a generative model (directly with a local development key, or
through the application's own serverless proxy) for a greeting, a quick
activity and nearby plans with map links.

This project models the decision logic of that application as pure Dafny
functions over immutable datatypes, and proves what each decision
promises:

- `Js` and `JsArray` give the JavaScript operations the code relies on:
  string truthiness and `||`, `trim`, `findIndex`, `filter`, `slice`,
  `some`, out-of-range reads giving `undefined`, and the
  "keep the first index a `findIndex` finds" deduplication idiom.
- `Types` holds the forecast records; `Wmo` holds the WMO weather-code
  ranges (code table 4677) that every component tests.
- `WeatherService` models city search, the apparent-temperature lookup
  of `getWeather`, and the reverse-geocoding name fallback.
- `GeminiService` models the direct-or-proxy call and the three public
  helpers; `GeminiProxy` models the serverless endpoint.
- `WeatherIcon`, `AtmosphericBackground`, `Mascot`, `CatAvatar`,
  `RabbitAvatar`, `OutfitWidget`, `PromoCard`, `HourlyForecast` and
  `ActivityModal` model the component logic (not the drawing).
- `App` models the shell: favorites, language switch, search guard, the
  outfit temperature and the daily cards.

Network responses, the SDK's outcome, the clock, the user's answer to the
name prompt and the mascots' random idle action are parameters. Timestamps
are integers, ordered as the parsed dates and equal exactly when the
strings are equal; temperatures and coordinates are reals.

Each component declares its own weather-code tests; the copies agree
with one another, so `Wmo` states them once. `ClearSky` (code 0
only) is the clear test of components/WeatherIcon.tsx:75 and
components/AtmosphericBackground.tsx:18; `MainlyClear` (codes 0 and 1) is
the `isClear` of components/CatAvatar.tsx:40, components/RabbitAvatar.tsx:41,
components/OutfitWidget.tsx:23 and components/PromoCard.tsx:52. The rain,
snow and thunder ranges are those of components/WeatherIcon.tsx:79-81,
components/AtmosphericBackground.tsx:10-12, components/CatAvatar.tsx:37-39,
components/RabbitAvatar.tsx:38-40, components/OutfitWidget.tsx:21-22,
components/PromoCard.tsx:50-51 and services/geminiService.ts:121-124; fog
is components/WeatherIcon.tsx:78.

Three behaviours of the code are worth stating explicitly: the client sets
no request timeout, a local key that does not start with `AIza` falls
through to the proxy, and `searchCity` does not cap the number of results
itself (the count of five is only a request parameter). String lengths are
JavaScript's, counted in UTF-16 code units.

## Model

| member | source | states |
|---|---|---|
| Js.Trim | App.tsx:207 | `trim` removes exactly the ECMAScript whitespace at both ends: the result is a contiguous piece of the input with only whitespace before and after it, neither of its ends is whitespace, and it is empty exactly when the input is all whitespace |
| Js.Utf16Length | services/weatherService.ts:7 | `length` counts UTF-16 code units: between one and two per character, and exactly one per character when no character lies outside the basic plane |
| Js.TrimIdempotent | services/geminiService.ts:143 | trimming an already trimmed string changes nothing |
| Js.OrNonEmpty | services/geminiService.ts:106 | `a \|\| fallback` with a non-empty fallback is never empty |
| Js.NatToDecimal | components/ActivityModal.tsx:19 | a number renders as digits only, with a leading zero only for zero |
| Js.DecimalRoundTrip | components/ActivityModal.tsx:19 | reading back the rendered digits gives the number itself |
| JsArray.At | components/HourlyForecast.tsx:31-33 | an array read is defined exactly inside the bounds and then is the element |
| JsArray.FindIndex | services/weatherService.ts:51 | `findIndex` is -1 exactly when no element matches, and otherwise the first matching index |
| JsArray.Slice | components/HourlyForecast.tsx:22 | `slice` clamps both bounds to the length and reads the elements in order from the start bound |
| JsArray.Any | App.tsx:185-188 | `some` holds exactly when some element satisfies the test |
| JsArray.Filter | components/ActivityModal.tsx:67 | `filter` keeps, in order, every satisfying element as often as it occurs and nothing else |
| JsArray.FilterAppend | App.tsx:215-221 | filtering a concatenation concatenates the filtered parts |
| JsArray.IsFirstMeans | components/ActivityModal.tsx:70-74 | an index is the one `findIndex` finds for its own element exactly when the element is related to itself and to no earlier element |
| JsArray.FirstIndices | components/ActivityModal.tsx:70-74 | the indices kept by the idiom are listed in increasing order, and each is first for its element |
| JsArray.FirstIndicesComplete | components/ActivityModal.tsx:70-74 | every index that is first for its element is listed |
| JsArray.DedupFromIndexed | components/ActivityModal.tsx:70-74 | the deduplicated array is the input read at those first indices, one element per index |
| JsArray.Dedup | components/ActivityModal.tsx:70-74 | keeping each element whose index is the first `findIndex` match yields exactly the input read at the first indices, in order: an in-order subsequence with no two related elements, containing every first occurrence and nothing else |
| JsArray.DedupCongruent | components/ActivityModal.tsx:70-74 | two relations that agree on the array's elements deduplicate it identically |
| Wmo.CategoriesDisjoint | components/WeatherIcon.tsx:75-81 | rain, snow, thunder and fog codes never overlap, and a clear or mainly clear code is in none of them |
| WeatherIcon.Classify | components/WeatherIcon.tsx:75-81 | each category holds exactly for its code range |
| WeatherIcon.Render | components/WeatherIcon.tsx:190-199 | each picture is drawn exactly for its category and day flag; codes in no category draw the bare sun |
| WeatherIcon.UncategorizedIsSunEvenAtNight | components/WeatherIcon.tsx:198 | an unknown code draws the sun even at night |
| GeminiService.BadWeatherMatchesIcon | services/geminiService.ts:121-124 | the prompt's bad weather is exactly the weather icon's thunder, snow or rain picture, or a temperature below 5 degrees |
| WeatherIcon.ContainerSize | components/WeatherIcon.tsx:65-72 | a known size name selects its class and any other name falls back to medium |
| AtmosphericBackground.ActiveLayers | components/AtmosphericBackground.tsx:10-18 | lightning always comes with rain and without clouds; sun rays exclude every other layer; rain and snow never fall together |
| AtmosphericBackground.LayerConditions | components/AtmosphericBackground.tsx:198-202 | each layer is on exactly for the codes the component tests for it |
| AtmosphericBackground.SunRaysMatchIcon | components/AtmosphericBackground.tsx:202 | the sun rays shine exactly when the weather icon draws the bare sun for a clear sky |
| AtmosphericBackground.ThunderIconCloudButNoBackgroundCloud | components/AtmosphericBackground.tsx:198-201 | under a thunderstorm the icon draws a cloud while the background shows none |
| AtmosphericBackground.UncategorizedIsEmpty | components/AtmosphericBackground.tsx:198-202 | a code in no category leaves the background empty |
| Mascot.BaseAnimation | components/CatAvatar.tsx:45-52 | each body animation is chosen exactly under its condition, and an idle animation is never the base one |
| Mascot.FaceFor | components/CatAvatar.tsx:214-231 | each face is shown exactly under its condition: asleep, scared by thunder, sunglasses on a hot clear day, else normal |
| Mascot.FreezingNeverPlainShiver | components/CatAvatar.tsx:49-51 | a freezing mascot never does the plain shiver and, awake, always shivers fast |
| Mascot.ThunderKeepsAwake | components/CatAvatar.tsx:45 | a thunderstorm keeps the mascot awake, shivering fast and scared |
| Mascot.ScarfAndUmbrellaTogether | components/CatAvatar.tsx:269-277 | the scarf and the umbrella are independent, so cold rain shows both |
| CatAvatar.CatPose | components/CatAvatar.tsx:45-277 | the wiggle replaces the body only while awake; the tail sways exactly when the cat is awake, whatever its face; the eyes look around only when awake with the normal face; ears follow their idle action; scarf and umbrella follow the weather |
| CatAvatar.SleepingCatIgnoresWiggle | components/CatAvatar.tsx:55 | a sleeping cat keeps floating, eyes closed and tail still, whatever idle action fires |
| RabbitAvatar.RabbitPose | components/RabbitAvatar.tsx:46-275 | the hop replaces the body whatever else holds; the ears twitch only when awake; the right ear leans less under thunder; the nose wiggles only on the normal face |
| RabbitAvatar.SleepingRabbitStillHops | components/RabbitAvatar.tsx:56 | the rabbit hops even while asleep, where the cat would keep floating |
| RabbitAvatar.MascotsAgreeWhenIdle | components/RabbitAvatar.tsx:46-56 | with no idle action both mascots agree on body, face, scarf and umbrella |
| OutfitWidget.Choose | components/OutfitWidget.tsx:21-44 | each advice is given exactly under its condition, independently of the order of the tests |
| OutfitWidget.RainBeatsTemperature | components/OutfitWidget.tsx:29-37 | rain always gives the umbrella, and dry cold always gives the scarf |
| PromoCard.PromoIcon | components/PromoCard.tsx:207-210 | each decorative icon is shown exactly under its condition, and the jacket never |
| PromoCard.PromoAgreesWithOutfit | components/PromoCard.tsx:207-210 | card and widget agree on umbrella and scarf, and widget sunglasses imply card sunglasses |
| PromoCard.PromoSunglassesWithoutHeat | components/PromoCard.tsx:209 | the card shows sunglasses on a mild clear day where the widget suggests a jacket |
| WeatherService.SearchCity | services/weatherService.ts:6-27 | a query shorter than two UTF-16 code units, a failed request or a missing result list give no places; otherwise one place per result, fields copied in order, with no nickname |
| WeatherService.ApparentIndex | services/weatherService.ts:51-59 | the hour read is the first hour equal to the snapshot time; otherwise, when some hour is later than the clock and it is not the first hour, the hour just before the first such hour (whatever the order of the others); otherwise hour 0, also when every hour is past |
| WeatherService.ApparentTemperature | services/weatherService.ts:45-62 | without hourly data the apparent temperature is the temperature; with aligned, non-empty data it is always defined; an exact hour match reads that hour |
| WeatherService.ApparentUndefinedWithoutHours | services/weatherService.ts:51-60 | an hourly block with no apparent temperatures (for instance empty arrays) leaves the apparent temperature undefined, whether an hour matches or the fallback reads hour 0 |
| WeatherService.ApparentBeforeFirstFuture | services/weatherService.ts:58-60 | without an exact match, the hour before the first future hour is read |
| WeatherService.ApparentDefaultsToFirstHour | services/weatherService.ts:59 | when the first hour is already in the future, or no hour is, hour 0 is read |
| WeatherService.GetWeather | services/weatherService.ts:29-71 | a failed request gives nothing; otherwise the forecast is returned unchanged except that the current snapshot carries the apparent temperature `ApparentTemperature` derives for it |
| WeatherService.ReverseGeocodeName | services/weatherService.ts:74-83 | the name is the city, else the locality, else the region, else the localized generic name, and is never empty |
| HourlyForecast.StartIndex | components/HourlyForecast.tsx:14-21 | the strip starts at the first hour not yet past, or at hour 0 when all hours are past |
| HourlyForecast.Window | components/HourlyForecast.tsx:22-33 | at most 24 cells, each reading the parallel arrays at its absolute hour index |
| HourlyForecast.WindowStartsAtNow | components/HourlyForecast.tsx:14-22 | when an hour is still ahead, the strip is non-empty, starts at or after the clock and shows only hours from the start on |
| HourlyForecast.AlignedWindowIsDefined | components/HourlyForecast.tsx:29-33 | with aligned arrays every shown cell has all its readings |
| HourlyForecast.WindowFullWhenDataLasts | components/HourlyForecast.tsx:22 | when 24 hours remain from the start, the strip is full |
| GeminiService.FirstGrounding | services/geminiService.ts:30 | the grounding is present exactly when the first candidate exists and carries one |
| GeminiService.SelectMode | services/geminiService.ts:20 | the SDK is called directly exactly when a local key starting with `AIza` is present |
| GeminiService.GenerateSecurely | services/geminiService.ts:12-66 | a call fails exactly when the direct SDK call fails, with its message; proxy failures, error statuses and unparseable bodies become the empty-text result |
| GeminiService.ProxyNeverThrows | services/geminiService.ts:61-65 | through the proxy a call never fails |
| GeminiService.CozyMessage | services/geminiService.ts:100-109 | the greeting is the generated text when non-empty, the localized default otherwise, the localized error greeting on failure, and never empty |
| GeminiService.CozyErrorOnlyInDirectMode | services/geminiService.ts:106-108 | through the proxy the error greeting can only appear as generated text |
| GeminiService.QuickActivity | services/geminiService.ts:137-146 | the activity is the trimmed text when anything is left, else the localized default; it is never empty nor padded |
| GeminiService.QuickActivityIsTrimmed | services/geminiService.ts:143 | the activity is already trimmed |
| GeminiService.BadWeatherRanges | services/geminiService.ts:121-124 | bad weather is exactly precipitation, snow, thunder or below 5 degrees, in raw code ranges |
| GeminiService.LocalRecommendations | services/geminiService.ts:194-201 | the recommendations are missing exactly when the call fails, and otherwise carry its text and grounding |
| GeminiService.ProxyRecommendationsPresent | services/geminiService.ts:61-65 | through the proxy recommendations are never missing; a proxy failure gives empty text |
| GeminiProxy.Handle | api/gemini.js:6-62 | every response carries the CORS headers; preflight gives 200, other non-POST 405, missing server key 500, missing model or contents 400; 200 exactly when everything is present and the SDK succeeds; an SDK failure gives 500 with its message |
| GeminiProxy.ProxyRoundTrip | api/gemini.js:42-61 | end to end, the client gets the SDK's text and first grounding exactly when the server has a key and the SDK succeeds, and the empty-text result otherwise |
| ActivityModal.ValidChunks | components/ActivityModal.tsx:67 | a chunk is kept exactly when it has a maps or a web link, in order, as often as it occurs |
| ActivityModal.KeptAsWritten | components/ActivityModal.tsx:70-74 | as written, a chunk is kept exactly when no earlier chunk has the same maps link (missing links counting as equal) or the same present web link |
| ActivityModal.ApartAsWritten | components/ActivityModal.tsx:71-73 | chunks that are pairwise no duplicates as written have pairwise distinct maps links, so at most one lacks a maps source |
| ActivityModal.DedupAsWritten | components/ActivityModal.tsx:70-74 | as written, the result is the valid chunks at exactly the indices with no earlier such duplicate, in order; kept chunks have pairwise distinct maps links, so at most one chunk without a maps link survives |
| ActivityModal.WebOnlyPairAsWritten | components/ActivityModal.tsx:71-73 | as written, of any two chunks without a maps source only the first is kept, whatever their web links |
| ActivityModal.DedupAsWrittenDropsWebPlaces | components/ActivityModal.tsx:71-73 | two web-only chunks with different links are reduced to the first |
| ActivityModal.KeptLinks | components/ActivityModal.tsx:70-74 | corrected, a chunk is kept exactly when no earlier chunk shares a present maps or web link with it |
| ActivityModal.LinksApart | components/ActivityModal.tsx:71-73 | chunks that pairwise share no link never repeat an earlier chunk's non-empty maps or web link |
| ActivityModal.DedupChunks | components/ActivityModal.tsx:70-74 | corrected, the result is the valid chunks at exactly the indices with no earlier chunk sharing a present link, in order; a later kept chunk never repeats an earlier one's maps or web link |
| ActivityModal.WebOnlyPairCorrected | components/ActivityModal.tsx:71-73 | corrected, any two chunks with only web links, and different ones, are both kept |
| ActivityModal.DedupChunksKeepsWebPlaces | components/ActivityModal.tsx:71-73 | two web-only chunks with different links are both kept |
| ActivityModal.CorrectionAgreesWithMapsLinks | components/ActivityModal.tsx:70-74 | when every chunk has a maps link, the correction keeps exactly what the code as written keeps |
| ActivityModal.Split | components/ActivityModal.tsx:78-82 | the first half, rounded up, goes to activities and the rest to food, each capped at three; with six or fewer chunks nothing is lost |
| ActivityModal.SplitMembers | components/ActivityModal.tsx:81-82 | both sections hold only deduplicated chunks |
| ActivityModal.SplitDisjoint | components/ActivityModal.tsx:81-82 | no chunk is shown in both sections |
| ActivityModal.ShownFromUnique | components/ActivityModal.tsx:78-82 | splitting distinct chunks taken in order from the valid ones shows only valid chunks of the result, none twice, and some activity whenever the result has a valid chunk |
| ActivityModal.Apology | components/ActivityModal.tsx:85-87 | the apology shown without plans is never empty |
| ActivityModal.LoadPlans | components/ActivityModal.tsx:59-88 | the state after the first load, with the deduplication as written: a missing result or empty text shows the localized apology and no places; otherwise the text with at most three valid, distinct, disjoint places per section, and activities whenever any valid chunk exists |
| ActivityModal.LoadPlansCorrected | components/ActivityModal.tsx:59-88 | the same dialog state with the corrected deduplication, keeping the same guarantees |
| ActivityModal.LoadPlansStages | components/ActivityModal.tsx:64-82 | with text, the sections of both dialogs are the split of the deduplicated valid chunks |
| ActivityModal.WebOnlyPlacesAsWritten | components/ActivityModal.tsx:67-82 | as written, a result with text grounded by any two web-only places shows only the first, under activities, and no food place |
| ActivityModal.WebOnlyPlacesCorrected | components/ActivityModal.tsx:67-82 | corrected, the same result shows one activity and one food place when the two web links differ |
| ActivityModal.LoadPlansCorrectionAgreesWithMapsLinks | components/ActivityModal.tsx:59-88 | when every grounding chunk has a maps link, the corrected dialog equals the dialog as written |
| ActivityModal.LinkCard | components/ActivityModal.tsx:15-21 | a card is drawn exactly for a valid chunk, preferring the maps link; its title is the maps title when non-empty, else the web title when non-empty, else the numbered placeholder; link and title are never empty |
| ActivityModal.PlaceholderNumbersFromOne | components/ActivityModal.tsx:19 | the placeholder title numbers places from one |
| ActivityModal.ShownPlacesRender | components/ActivityModal.tsx:149-164 | every place shown in either section draws a card |
| App.MatchesSymmetric | App.tsx:185-188 | being the same place within the tolerance is symmetric |
| App.IsFavorite | App.tsx:182-189 | without a place nothing is a favorite; otherwise it is one exactly when a saved place lies within 0.005 in both coordinates |
| App.RemoveFavorite | App.tsx:215-221 | removal keeps, in order and with multiplicity, exactly the places not within the tolerance |
| App.RemovedIsNotFavorite | App.tsx:196-199 | after removal the place is no longer a favorite |
| App.FavoriteName | App.tsx:204-207 | the stored nickname is the trimmed answer, else the existing nickname, else the place name |
| App.ToggleFavorite | App.tsx:191-213 | the star removes a saved place by `RemoveFavorite` (strictly shortening the list), appends the named place on a confirmed answer, and otherwise changes nothing |
| App.RemoveKeepsNoTwoMatch | App.tsx:215-221 | removal keeps the saved places pairwise distinct |
| App.ToggleKeepsNoTwoMatch | App.tsx:191-213 | the star keeps the saved places pairwise distinct |
| App.AddThenToggleRestores | App.tsx:196-209 | adding a new place and pressing the star again restores the list |
| App.SwitchLanguage | App.tsx:165-178 | the language flips; a generic place name is replaced by the new language's one and every other name is kept |
| App.ToggleLanguageAsWritten | App.tsx:173 | as written, a place the reverse geocoder called by its Spanish generic name keeps that name after switching |
| App.ToggleLanguage | App.tsx:165-178 | with the reverse geocoder's spelling, the generic name of the current language is translated |
| App.ToggleLanguageAsWrittenKeepsSpanishName | App.tsx:27 | the Spanish generic name survives the switch as written and becomes the English one once corrected |
| App.ToggleLanguageTwice | App.tsx:165-178 | switching twice restores the shell |
| App.SearchResults | App.tsx:146-155 | the search box queries only for more than two UTF-16 code units and otherwise clears the results |
| App.SearchGuardsAgree | App.tsx:149 | every query the box sends passes the client's own minimum length, and a query of exactly two code units is never sent |
| App.AstralQueryLength | App.tsx:149 | two characters outside the basic plane make a query of four code units that is sent, while one such character is not |
| App.OutfitTemperature | App.tsx:411 | the outfit temperature is the apparent temperature unless it is missing or zero |
| App.OutfitUsesDerivedApparent | App.tsx:411 | the value computed at App.tsx:411 over any fetched forecast: the actual temperature without hourly data, and otherwise the hourly apparent temperature at the index `getWeather` picks unless it is missing or zero |
| App.ZeroApparentIgnored | App.tsx:411 | an apparent temperature of exactly zero is replaced by the actual one |
| App.DailyCards | App.tsx:438-446 | the day cards are days 1 to 6, each reading the daily arrays at its own day |
| App.WeekOfCards | App.tsx:438-446 | a week of aligned data gives six complete cards |

## Left out

- Rendering: JSX, SVG shapes, CSS classes and keyframes, and the `ActivityWidget`, `DailyCard`, `FavoriteTicket`, `OutfitIcons` and `StitchedUtils` components, which only draw what they are given.
- The mascots' idle timers and `Math.random`: the current idle action is an input.
- `fetch`, URL building, JSON parsing, `localStorage`, the geolocation API, `window.prompt` and `setTimeout`: their results are inputs.
- Date parsing and formatting: hours and days are integer timestamps, compared as the code compares the dates.
- `Math.round` on displayed temperatures, and floating point in general: temperatures and coordinates are exact reals.
- The prompt texts, the model names and the SDK itself: the SDK call is an input outcome.
- The modal's `isMounted` guard and React state updates: `LoadPlans` gives the state the modal ends in after its first load. When the effect runs again while the modal stays open (a change of language, say) and that request fails, the code sets only the apology text, so the sections of the earlier load stay on screen; the model does not carry state between loads.
- HourlyForecast.Window: App renders the hourly strip without a guard (App.tsx:432), so a forecast without an hourly block throws at HourlyForecast.tsx:14 while rendering and nothing catches it; the model's strip always receives a block, and `App.OutfitUsesDerivedApparent` states only the value App.tsx:411 computes, not that the view is drawn.
- App.SearchResults: gives the results for the query as typed; the code awaits `searchCity` without checking that the query is still current, so a late response for a longer query can fill the list after the query was shortened to two units or fewer, and the order in which responses arrive is not modelled.
- PromoCard's image capture, sharing and clipboard, the service worker and the build configuration: they hold no application logic.
- The language passed to the search and geocoding requests: it only changes the request URL.
- WeatherService.ApparentTemperature: an hourly block that lacks its time or apparent-temperature array is represented as a missing block.
- WeatherService.GetWeather: a forecast without `current_weather` makes the code throw and return nothing; the model's forecast always has one.
- GeminiProxy.Handle: a request whose body is not an object makes the destructuring throw with a runtime-written message; the model's body is always an object.
- GeminiService.GenerateSecurely: a proxy body is modelled as either unparseable or of the `{ text, groundingMetadata }` shape; other JSON values are not modelled.
- GeminiProxy.ProxyRoundTrip: a JSON body without `text` reads back `text` as missing, which the model takes as given rather than modelling serialization.

## Findings

| source | as written | input that shows it | evidently intended | confidence | as-written member | corrected member |
|---|---|---|---|---|---|---|
| App.tsx:27 | the Spanish generic name in the translation table is the mis-encoded `Tu Ubicaci√≥n`, so the language switch at App.tsx:173 never recognizes the `Tu Ubicación` the reverse geocoder returns | a located place named `Tu Ubicación` with the language set to Spanish: switching to English keeps the Spanish name (`App.ToggleLanguageAsWrittenKeepsSpanishName`) | the table spells `Tu Ubicación`, so the name becomes `Your Location` | medium, not executed; every accented string in the Spanish table shows the same mis-encoding, so it may come from how the file was saved | App.ToggleLanguageAsWritten | App.ToggleLanguage |
| components/ActivityModal.tsx:71-73 | the duplicate test compares the maps links without checking that they exist, so two chunks without a maps link count as duplicates | two chunks with only web links `https://a.example` and `https://b.example`: only the first is kept (`ActivityModal.DedupAsWrittenDropsWebPlaces`) | compare the maps links only when the chunk has one, as the web comparison already does, so both places are kept (`ActivityModal.DedupChunksKeepsWebPlaces`) | medium, not executed; grounding from Google Maps normally carries maps links, where both agree (`ActivityModal.CorrectionAgreesWithMapsLinks`, `ActivityModal.LoadPlansCorrectionAgreesWithMapsLinks`); the dialog model `ActivityModal.LoadPlans` follows the code as written (`ActivityModal.WebOnlyPlacesAsWritten`) and `ActivityModal.LoadPlansCorrected` shows both places (`ActivityModal.WebOnlyPlacesCorrected`) | ActivityModal.DedupAsWritten | ActivityModal.DedupChunks |

=== FILE: activity_modal.dfy ===
/** The nearby-plans dialog: the grounding chunks of the recommendations are
    filtered to those with a link, deduplicated by link, and split into an
    activity half and a food half of at most three places each; each place
    renders as a link card. */
module ActivityModal {
  import opened Js
  import opened JsArray
  import opened Types
  import opened GeminiService

  /** `chunk.maps?.uri`. */
  function MapsUri(c: Chunk): Option<string> {
    if c.maps.Some? then c.maps.value.uri else None
  }

  /** `chunk.web?.uri`. */
  function WebUri(c: Chunk): Option<string> {
    if c.web.Some? then c.web.value.uri else None
  }

  /** A chunk is kept when it has a non-empty maps or web uri. */
  predicate IsValid(c: Chunk) {
    Truthy(MapsUri(c)) || Truthy(WebUri(c))
  }

  /** The chunks with a link, in order, with their multiplicities. */
  function ValidChunks(all: seq<Chunk>): (r: seq<Chunk>)
    ensures IsSubsequence(r, all)
    ensures forall c :: c in r <==> c in all && IsValid(c)
    ensures forall c | c in all :: multiset(r)[c] == if IsValid(c) then multiset(all)[c] else 0
  {
    var r := Filter(all, IsValid);
    assert forall c | c in all :: c in r <==> IsValid(c) by {
      forall c | c in all ensures c in r <==> IsValid(c) {
        assert multiset(r)[c] == (if IsValid(c) then multiset(all)[c] else 0);
      }
    }
    SubsequenceMembers(r, all);
    r
  }

  // ---------------------------------------------------------------------------
  // Deduplication

  /** The relation the dialog deduplicates with, as written: an earlier chunk
      `t` duplicates `c` when their maps uris are equal, or when their web
      uris are equal and non-empty. Two chunks without any maps source have
      equal (absent) maps uris and so duplicate each other. */
  predicate SameAsWritten(t: Chunk, c: Chunk) {
    MapsUri(t) == MapsUri(c) || (WebUri(t) == WebUri(c) && Truthy(WebUri(c)))
  }

  /** The relation as evidently intended: the maps comparison guarded by a
      non-empty maps uri, just as the web comparison is guarded. */
  predicate SameLink(t: Chunk, c: Chunk) {
    (Truthy(MapsUri(c)) && MapsUri(t) == MapsUri(c)) || (Truthy(WebUri(c)) && WebUri(t) == WebUri(c))
  }

  /** Under the relation as written, chunk `k` is first exactly when no
      earlier chunk duplicates it. */
  lemma KeptAsWritten(valid: seq<Chunk>)
    ensures forall k :: 0 <= k < |valid| ==>
      (k in FirstIndices(valid, SameAsWritten, 0) <==> forall j :: 0 <= j < k ==> !SameAsWritten(valid[j], valid[k]))
  {
    var f := FirstIndices(valid, SameAsWritten, 0);
    forall k | 0 <= k < |valid|
      ensures k in f <==> forall j :: 0 <= j < k ==> !SameAsWritten(valid[j], valid[k])
    {
      IsFirstMeans(valid, SameAsWritten, k);
      FirstIndicesComplete(valid, SameAsWritten, 0);
      if k in f {
        var j :| 0 <= j < |f| && f[j] == k;
      }
    }
  }

  /** The deduplication as written: the chunks that no earlier chunk
      duplicates, in order, each once. Kept chunks have pairwise distinct
      maps uris, so they are distinct and at most one of them lacks a maps
      source; the first chunk is always kept. */
  function DedupAsWritten(valid: seq<Chunk>): (r: seq<Chunk>)
    ensures var f := FirstIndices(valid, SameAsWritten, 0);
      && |r| == |f|
      && (forall j :: 0 <= j < |r| ==> r[j] == valid[f[j]])
      && (forall k :: 0 <= k < |valid| ==>
            (k in f <==> forall j :: 0 <= j < k ==> !SameAsWritten(valid[j], valid[k])))
    ensures IsSubsequence(r, valid)
    ensures forall a, b :: 0 <= a < b < |r| ==> MapsUri(r[a]) != MapsUri(r[b])
    ensures forall a, b :: 0 <= a < b < |r| ==> r[a] != r[b]
    ensures forall a, b :: 0 <= a < b < |r| && r[a].maps.None? ==> r[b].maps.Some?
    ensures valid != [] ==> r != [] && r[0] == valid[0]
  {
    var r := Dedup(valid, SameAsWritten);
    KeptAsWritten(valid);
    ApartAsWritten(r);
    r
  }

  /** Chunks that are pairwise no duplicates as written have pairwise
      distinct maps uris, hence are distinct and at most one lacks a maps
      source. */
  lemma ApartAsWritten(r: seq<Chunk>)
    requires forall a, b :: 0 <= a < b < |r| ==> !SameAsWritten(r[a], r[b])
    ensures forall a, b :: 0 <= a < b < |r| ==> MapsUri(r[a]) != MapsUri(r[b])
    ensures forall a, b :: 0 <= a < b < |r| ==> r[a] != r[b]
    ensures forall a, b :: 0 <= a < b < |r| && r[a].maps.None? ==> r[b].maps.Some?
  {
  }

  /** Two chunks without a maps source: as written the second is always
      taken for a duplicate of the first, whatever their web links. */
  lemma WebOnlyPairAsWritten(a: Chunk, b: Chunk)
    requires a.maps.None? && b.maps.None?
    ensures DedupAsWritten([a, b]) == [a]
  {
    var xs := [a, b];
    assert FindIndex(xs, t => SameAsWritten(t, xs[0])) == 0;
    assert FindIndex(xs, t => SameAsWritten(t, xs[1])) == 0;
    assert DedupFrom(xs, SameAsWritten, 1) == [];
    assert DedupFrom(xs, SameAsWritten, 0) == [a];
  }

  /** Two places found only on the web, with different links: the
      as-written deduplication keeps only the first. */
  lemma DedupAsWrittenDropsWebPlaces()
    ensures var a := Chunk(None, Some(Link(Some("https://a.example"), None)));
            var b := Chunk(None, Some(Link(Some("https://b.example"), None)));
            IsValid(a) && IsValid(b) && WebUri(a) != WebUri(b) &&
            DedupAsWritten([a, b]) == [a]
  {
    var a := Chunk(None, Some(Link(Some("https://a.example"), None)));
    var b := Chunk(None, Some(Link(Some("https://b.example"), None)));
    assert "https://a.example"[8] != "https://b.example"[8];
    WebOnlyPairAsWritten(a, b);
  }

  /** A chunk with a link shares that link with itself. */
  lemma ValidSharesOwnLink(c: Chunk)
    requires IsValid(c)
    ensures SameLink(c, c)
  {
  }

  /** A valid chunk shares its own link, so chunks with no shared link are
      distinct chunks. */
  lemma DistinctLinksAreDistinctChunks(r: seq<Chunk>)
    requires forall i :: 0 <= i < |r| ==> IsValid(r[i])
    requires forall a, b :: 0 <= a < b < |r| ==> !SameLink(r[a], r[b])
    ensures forall a, b :: 0 <= a < b < |r| ==> r[a] != r[b]
  {
    forall a, b | 0 <= a < b < |r| ensures r[a] != r[b] {
      ValidSharesOwnLink(r[b]);
    }
  }

  /** Chunks that pairwise share no link have, later to earlier, distinct
      non-empty maps uris and distinct non-empty web uris. */
  lemma LinksApart(r: seq<Chunk>)
    requires forall a, b :: 0 <= a < b < |r| ==> !SameLink(r[a], r[b])
    ensures forall a, b :: 0 <= a < b < |r| ==>
      && (Truthy(MapsUri(r[b])) ==> MapsUri(r[a]) != MapsUri(r[b]))
      && (Truthy(WebUri(r[b])) ==> WebUri(r[a]) != WebUri(r[b]))
  {
  }

  /** Under the corrected relation, a chunk with a link is first exactly
      when no earlier chunk shares its non-empty maps or web uri. */
  lemma KeptLinks(valid: seq<Chunk>)
    requires forall c :: c in valid ==> IsValid(c)
    ensures forall k :: 0 <= k < |valid| ==>
      (k in FirstIndices(valid, SameLink, 0) <==> forall j :: 0 <= j < k ==> !SameLink(valid[j], valid[k]))
  {
    var f := FirstIndices(valid, SameLink, 0);
    forall k | 0 <= k < |valid|
      ensures k in f <==> forall j :: 0 <= j < k ==> !SameLink(valid[j], valid[k])
    {
      assert valid[k] in valid;
      ValidSharesOwnLink(valid[k]);
      IsFirstMeans(valid, SameLink, k);
      FirstIndicesComplete(valid, SameLink, 0);
      if k in f {
        var j :| 0 <= j < |f| && f[j] == k;
      }
    }
  }

  /** The corrected deduplication: a chunk is dropped when an earlier chunk
      shares its non-empty maps uri or its non-empty web uri. The kept
      chunks are those that repeat no earlier link, in order, each once;
      among them no later one repeats an earlier one's link; the first valid
      chunk is always kept. */
  function DedupChunks(valid: seq<Chunk>): (r: seq<Chunk>)
    requires forall c :: c in valid ==> IsValid(c)
    ensures var f := FirstIndices(valid, SameLink, 0);
      && |r| == |f|
      && (forall j :: 0 <= j < |r| ==> r[j] == valid[f[j]])
      && (forall k :: 0 <= k < |valid| ==>
            (k in f <==> forall j :: 0 <= j < k ==> !SameLink(valid[j], valid[k])))
    ensures IsSubsequence(r, valid)
    ensures forall a, b :: 0 <= a < b < |r| ==>
      && (Truthy(MapsUri(r[b])) ==> MapsUri(r[a]) != MapsUri(r[b]))
      && (Truthy(WebUri(r[b])) ==> WebUri(r[a]) != WebUri(r[b]))
    ensures forall a, b :: 0 <= a < b < |r| ==> r[a] != r[b]
    ensures forall k :: 0 <= k < |valid| && IsFirst(valid, SameLink, k) ==> valid[k] in r
    ensures forall c :: c in r ==>
      exists k :: 0 <= k < |valid| && valid[k] == c && IsFirst(valid, SameLink, k)
    ensures valid != [] ==> r != [] && r[0] == valid[0]
  {
    DedupLinksFacts(valid);
    Dedup(valid, SameLink)
  }

  /** What the corrected relation adds to the generic deduplication: which
      indices are first, that kept chunks repeat no link and are distinct,
      and that the first valid chunk is kept. */
  lemma DedupLinksFacts(valid: seq<Chunk>)
    requires forall c :: c in valid ==> IsValid(c)
    ensures var r, f := Dedup(valid, SameLink), FirstIndices(valid, SameLink, 0);
      && (forall k :: 0 <= k < |valid| ==>
            (k in f <==> forall j :: 0 <= j < k ==> !SameLink(valid[j], valid[k])))
      && (forall a, b :: 0 <= a < b < |r| ==>
            && (Truthy(MapsUri(r[b])) ==> MapsUri(r[a]) != MapsUri(r[b]))
            && (Truthy(WebUri(r[b])) ==> WebUri(r[a]) != WebUri(r[b])))
      && (forall a, b :: 0 <= a < b < |r| ==> r[a] != r[b])
      && (valid != [] ==> r != [] && r[0] == valid[0])
  {
    var r := Dedup(valid, SameLink);
    KeptLinks(valid);
    LinksApart(r);
    SubsequenceMembers(r, valid);
    DistinctLinksAreDistinctChunks(r);
    if valid != [] {
      assert valid[0] in valid;
      ValidSharesOwnLink(valid[0]);
    }
  }

  /** Two chunks with only web links, and different ones: the corrected
      deduplication keeps both. */
  lemma WebOnlyPairCorrected(a: Chunk, b: Chunk)
    requires a.maps.None? && b.maps.None?
    requires Truthy(WebUri(a)) && Truthy(WebUri(b)) && WebUri(a) != WebUri(b)
    ensures DedupChunks([a, b]) == [a, b]
  {
    var xs := [a, b];
    assert FindIndex(xs, t => SameLink(t, xs[0])) == 0;
    assert FindIndex(xs, t => SameLink(t, xs[1])) == 1;
    assert DedupFrom(xs, SameLink, 1) == [b];
    assert DedupFrom(xs, SameLink, 0) == [a, b];
  }

  /** The corrected deduplication keeps both web-only places. */
  lemma DedupChunksKeepsWebPlaces()
    ensures var a := Chunk(None, Some(Link(Some("https://a.example"), None)));
            var b := Chunk(None, Some(Link(Some("https://b.example"), None)));
            DedupChunks([a, b]) == [a, b]
  {
    var a := Chunk(None, Some(Link(Some("https://a.example"), None)));
    var b := Chunk(None, Some(Link(Some("https://b.example"), None)));
    assert "https://a.example"[8] != "https://b.example"[8];
    WebOnlyPairCorrected(a, b);
  }

  /** When every chunk has a maps link the correction changes nothing. */
  lemma CorrectionAgreesWithMapsLinks(valid: seq<Chunk>)
    requires forall c :: c in valid ==> Truthy(MapsUri(c))
    ensures DedupChunks(valid) == DedupAsWritten(valid)
  {
    DedupCongruent(valid, SameLink, SameAsWritten);
  }

  // ---------------------------------------------------------------------------
  // The split into sections

  /** The maximum number of places per section. */
  const SectionCap := 3

  datatype Sections = Sections(activity: seq<Chunk>, food: seq<Chunk>)

  /** The first half, rounded up, goes to activities and the rest to food,
      each capped at three places. */
  function Split(unique: seq<Chunk>): (s: Sections)
    ensures var n := |unique|; var half := n - n / 2;
      && |s.activity| == Min(half, SectionCap)
      && |s.food| == Min(n - half, SectionCap)
      && s.activity == unique[..|s.activity|]
      && s.food == unique[half..half + |s.food|]
    ensures |s.food| <= |s.activity| <= SectionCap
    ensures |unique| <= 2 * SectionCap ==> s.activity + s.food == unique
  {
    var split := (|unique| + 1) / 2;
    var activity := Slice(Slice(unique, 0, split), 0, SectionCap);
    var food := Slice(Slice(unique, split, |unique|), 0, SectionCap);
    assert activity == unique[..|activity|];
    assert food == unique[split..split + |food|];
    assert |unique| <= 2 * SectionCap ==> activity + food == unique by {
      if |unique| <= 2 * SectionCap {
        assert |activity| == split;
        assert unique == unique[..split] + unique[split..];
      }
    }
    Sections(activity, food)
  }

  /** Each section holds places of the deduplicated list. */
  lemma SplitMembers(unique: seq<Chunk>)
    ensures forall c :: c in Split(unique).activity ==> c in unique
    ensures forall c :: c in Split(unique).food ==> c in unique
  {
    var s := Split(unique);
    var half := |unique| - |unique| / 2;
    assert s.activity == unique[..|s.activity|];
    assert s.food == unique[half..half + |s.food|];
  }

  /** With distinct places no place is in both sections. */
  lemma SplitDisjoint(unique: seq<Chunk>)
    requires forall a, b :: 0 <= a < b < |unique| ==> unique[a] != unique[b]
    ensures forall c :: c in Split(unique).activity ==> c !in Split(unique).food
  {
    var s := Split(unique);
    var half := |unique| - |unique| / 2;
    forall c | c in s.activity
      ensures c !in s.food
    {
      var i :| 0 <= i < |s.activity| && s.activity[i] == c;
      assert c == unique[i];
      forall j | 0 <= j < |s.food|
        ensures s.food[j] != c
      {
        assert s.food[j] == unique[half + j];
      }
    }
  }

  // ---------------------------------------------------------------------------
  // The dialog's content

  /** The localized apology shown when no plans could be loaded; it is
      never empty. */
  function Apology(lang: Lang): (r: string)
    ensures r != ""
  {
    match lang
    case Es => "Lo siento, no pude conectar con las nubes para buscar lugares. \U{1F327}\U{FE0F}"
    case En => "Sorry, I couldn't connect to the clouds to find places. \U{1F327}\U{FE0F}"
  }

  datatype Plans = Plans(content: string, sections: Sections)

  /** The chunks a result carries; missing grounding counts as none. */
  function ResultChunks(result: GenResult): seq<Chunk> {
    match result.groundingMetadata
    case None => []
    case Some(g) => if g.groundingChunks.Some? then g.groundingChunks.value else []
  }

  /** The dialog after loading, as written. Without a result or without
      text it shows the localized apology and no places. Otherwise it shows
      the text and the grounding chunks with a link, deduplicated as written
      and split; every shown place is a valid chunk of the result, and none
      is shown twice. */
  function LoadPlans(lang: Lang, result: Option<GenResult>): (p: Plans)
    ensures !(result.Some? && Truthy(result.value.text)) ==>
      p == Plans(Apology(lang), Sections([], []))
    ensures result.Some? && Truthy(result.value.text) ==> p.content == result.value.text.value
    ensures p.content != ""
    ensures |p.sections.activity| <= SectionCap && |p.sections.food| <= SectionCap
    ensures forall c :: c in p.sections.activity || c in p.sections.food ==>
      IsValid(c) && c in ResultChunks(result.value)
    ensures forall c :: c in p.sections.activity ==> c !in p.sections.food
    ensures result.Some? && Truthy(result.value.text) && (exists c :: c in ResultChunks(result.value) && IsValid(c)) ==>
      p.sections.activity != []
  {
    if result.Some? && Truthy(result.value.text) then
      var all := ResultChunks(result.value);
      var valid := ValidChunks(all);
      var unique := DedupAsWritten(valid);
      ShownFromUnique(all, unique);
      Plans(result.value.text.value, Split(unique))
    else
      Plans(Apology(lang), Sections([], []))
  }

  /** The dialog after loading, with the corrected deduplication; it keeps
      every promise of `LoadPlans`. */
  function LoadPlansCorrected(lang: Lang, result: Option<GenResult>): (p: Plans)
    ensures !(result.Some? && Truthy(result.value.text)) ==>
      p == Plans(Apology(lang), Sections([], []))
    ensures result.Some? && Truthy(result.value.text) ==> p.content == result.value.text.value
    ensures p.content != ""
    ensures |p.sections.activity| <= SectionCap && |p.sections.food| <= SectionCap
    ensures forall c :: c in p.sections.activity || c in p.sections.food ==>
      IsValid(c) && c in ResultChunks(result.value)
    ensures forall c :: c in p.sections.activity ==> c !in p.sections.food
    ensures result.Some? && Truthy(result.value.text) && (exists c :: c in ResultChunks(result.value) && IsValid(c)) ==>
      p.sections.activity != []
  {
    if result.Some? && Truthy(result.value.text) then
      var all := ResultChunks(result.value);
      var valid := ValidChunks(all);
      var unique := DedupChunks(valid);
      ShownFromUnique(all, unique);
      Plans(result.value.text.value, Split(unique))
    else
      Plans(Apology(lang), Sections([], []))
  }

  /** Splitting distinct chunks taken in order from the valid chunks of
      `all` shows only valid chunks of `all`, none in both sections, and
      some activity whenever `all` has a valid chunk and none was lost. */
  lemma ShownFromUnique(all: seq<Chunk>, unique: seq<Chunk>)
    requires IsSubsequence(unique, ValidChunks(all))
    requires forall a, b :: 0 <= a < b < |unique| ==> unique[a] != unique[b]
    requires ValidChunks(all) != [] ==> unique != []
    ensures var s := Split(unique);
      && (forall c :: c in s.activity || c in s.food ==> IsValid(c) && c in all)
      && (forall c :: c in s.activity ==> c !in s.food)
      && ((exists c :: c in all && IsValid(c)) ==> s.activity != [])
  {
    SubsequenceMembers(unique, ValidChunks(all));
    SplitMembers(unique);
    SplitDisjoint(unique);
    if exists c :: c in all && IsValid(c) {
      var c :| c in all && IsValid(c);
      assert c in ValidChunks(all);
    }
  }

  /** The sections shown for a result with text, stage by stage. */
  lemma LoadPlansStages(lang: Lang, result: GenResult)
    requires Truthy(result.text)
    ensures var valid := ValidChunks(ResultChunks(result));
      && LoadPlans(lang, Some(result)).sections == Split(DedupAsWritten(valid))
      && LoadPlansCorrected(lang, Some(result)).sections == Split(DedupChunks(valid))
  {
  }

  /** As written, a result grounded by two places found only on the web
      shows the first as the one activity and no food place. */
  lemma WebOnlyPlacesAsWritten(lang: Lang, text: string, a: Chunk, b: Chunk)
    requires text != ""
    requires a.maps.None? && b.maps.None? && Truthy(WebUri(a)) && Truthy(WebUri(b))
    ensures var result := GenResult(Some(text), Some(GroundingMetadata(Some([a, b]))));
            LoadPlans(lang, Some(result)).sections == Sections([a], [])
  {
    var result := GenResult(Some(text), Some(GroundingMetadata(Some([a, b]))));
    assert ResultChunks(result) == [a, b];
    ValidChunksOfValid([a, b]);
    WebOnlyPairAsWritten(a, b);
    SplitOne(a);
    LoadPlansStages(lang, result);
  }

  /** Corrected, the same result shows one activity and one food place
      when the two web links differ. */
  lemma WebOnlyPlacesCorrected(lang: Lang, text: string, a: Chunk, b: Chunk)
    requires text != ""
    requires a.maps.None? && b.maps.None?
    requires Truthy(WebUri(a)) && Truthy(WebUri(b)) && WebUri(a) != WebUri(b)
    ensures var result := GenResult(Some(text), Some(GroundingMetadata(Some([a, b]))));
            LoadPlansCorrected(lang, Some(result)).sections == Sections([a], [b])
  {
    var result := GenResult(Some(text), Some(GroundingMetadata(Some([a, b]))));
    assert ResultChunks(result) == [a, b];
    ValidChunksOfValid([a, b]);
    WebOnlyPairCorrected(a, b);
    SplitPair(a, b);
    LoadPlansStages(lang, result);
  }

  /** Chunks that all have a link pass the link filter unchanged. */
  lemma ValidChunksOfValid(all: seq<Chunk>)
    requires forall c :: c in all ==> IsValid(c)
    ensures ValidChunks(all) == all
  {
    FilterKeepsAll(all, IsValid);
  }

  /** A single place is the one activity. */
  lemma SplitOne(a: Chunk)
    ensures Split([a]) == Sections([a], [])
  {
    var s := Split([a]);
    assert s.activity == [a] && s.food == [];
  }

  /** Two places are split one per section. */
  lemma SplitPair(a: Chunk, b: Chunk)
    ensures Split([a, b]) == Sections([a], [b])
  {
    var s := Split([a, b]);
    assert s.activity == [a] && s.food == [b];
  }

  /** When every grounding chunk has a maps link, the correction shows
      exactly what the dialog as written shows. */
  lemma LoadPlansCorrectionAgreesWithMapsLinks(lang: Lang, result: Option<GenResult>)
    requires result.Some? ==> forall c :: c in ResultChunks(result.value) ==> Truthy(MapsUri(c))
    ensures LoadPlansCorrected(lang, result) == LoadPlans(lang, result)
  {
    if result.Some? && Truthy(result.value.text) {
      var all := ResultChunks(result.value);
      var valid := ValidChunks(all);
      assert forall c :: c in valid ==> c in all;
      CorrectionAgreesWithMapsLinks(valid);
    }
  }

  // ---------------------------------------------------------------------------
  // LinkCard

  datatype Card = Card(uri: string, title: string)

  /** `Lugar {idx + 1}`. */
  function PlaceholderTitle(idx: nat): string {
    "Lugar " + NatToDecimal(idx + 1)
  }

  /** `chunk.maps?.title`. */
  function MapsTitle(c: Chunk): Option<string> {
    if c.maps.Some? then c.maps.value.title else None
  }

  /** `chunk.web?.title`. */
  function WebTitle(c: Chunk): Option<string> {
    if c.web.Some? then c.web.value.title else None
  }

  /** The card for the chunk at position `idx` of its section: the maps uri,
      else the web uri; the maps title, else the web title, else a numbered
      placeholder. Nothing is rendered without a uri. */
  function LinkCard(chunk: Chunk, idx: nat): (r: Option<Card>)
    ensures r.None? <==> !IsValid(chunk)
    ensures r.Some? && Truthy(MapsUri(chunk)) ==> r.value.uri == MapsUri(chunk).value
    ensures r.Some? && !Truthy(MapsUri(chunk)) ==> r.value.uri == WebUri(chunk).value
    ensures r.Some? && Truthy(MapsTitle(chunk)) ==> r.value.title == MapsTitle(chunk).value
    ensures r.Some? && !Truthy(MapsTitle(chunk)) && Truthy(WebTitle(chunk)) ==>
      r.value.title == WebTitle(chunk).value
    ensures r.Some? && !Truthy(MapsTitle(chunk)) && !Truthy(WebTitle(chunk)) ==>
      r.value.title == PlaceholderTitle(idx)
    ensures r.Some? ==> r.value.uri != "" && r.value.title != ""
  {
    var uri := OrElse(MapsUri(chunk), WebUri(chunk));
    var title := Or(OrElse(MapsTitle(chunk), WebTitle(chunk)), PlaceholderTitle(idx));
    if Truthy(uri) then Some(Card(uri.value, title)) else None
  }

  /** An untitled place is numbered from one, by its position. */
  lemma PlaceholderNumbersFromOne(idx: nat)
    ensures var t := PlaceholderTitle(idx);
      |t| > 6 && t[..6] == "Lugar " &&
      (forall k :: 6 <= k < |t| ==> IsDigit(t[k])) &&
      DecimalValue(t[6..]) == idx + 1
  {
    var t := PlaceholderTitle(idx);
    assert t[6..] == NatToDecimal(idx + 1);
    DecimalRoundTrip(idx + 1);
  }

  /** Every place the dialog shows renders as a card. */
  lemma ShownPlacesRender(lang: Lang, result: Option<GenResult>)
    ensures var s := LoadPlans(lang, result).sections;
      && (forall i :: 0 <= i < |s.activity| ==> LinkCard(s.activity[i], i).Some?)
      && (forall i :: 0 <= i < |s.food| ==> LinkCard(s.food[i], i).Some?)
  {
    var s := LoadPlans(lang, result).sections;
    forall i | 0 <= i < |s.activity|
      ensures LinkCard(s.activity[i], i).Some?
    {
      assert s.activity[i] in s.activity;
    }
    forall i | 0 <= i < |s.food|
      ensures LinkCard(s.food[i], i).Some?
    {
      assert s.food[i] in s.food;
    }
  }
}

=== FILE: app.dfy ===
/** The application shell's own logic: the favorites list, whose entries are
    identified by approximate coordinates; the language switch and its
    renaming of the generic place name; the search threshold; the
    temperature handed to the outfit widget; and the daily cards. Prompts
    and fetched data are inputs; the delay before the nickname prompt
    becomes a sequential step. */
module App {
  import opened Js
  import opened JsArray
  import opened Types
  import WeatherService
  import OutfitWidget

  // ---------------------------------------------------------------------------
  // Favorites

  /** Coordinates closer than this in both latitude and longitude denote
      the same place. */
  const Tolerance: real := 0.005

  function Abs(x: real): real {
    if x < 0.0 then -x else x
  }

  /** `fav` lies within the tolerance of the coordinate. */
  predicate Near(fav: GeoLocation, lat: real, lon: real) {
    Abs(fav.latitude - lat) < Tolerance && Abs(fav.longitude - lon) < Tolerance
  }

  /** Two places denote the same place. The relation is symmetric. */
  predicate Matches(a: GeoLocation, b: GeoLocation) {
    Near(a, b.latitude, b.longitude)
  }

  lemma MatchesSymmetric(a: GeoLocation, b: GeoLocation)
    ensures Matches(a, b) <==> Matches(b, a)
  {
  }

  /** Whether the current place is saved: never without a place, otherwise
      exactly when some favorite lies within the tolerance of it. */
  function IsFavorite(location: Option<GeoLocation>, favorites: seq<GeoLocation>): (r: bool)
    ensures location.None? ==> !r
    ensures location.Some? ==>
      (r <==> exists i :: 0 <= i < |favorites| && Matches(favorites[i], location.value))
  {
    match location
    case None => false
    case Some(loc) => Any(favorites, fav => Matches(fav, loc))
  }

  /** Removal by coordinate keeps, in order and with their multiplicities,
      exactly the favorites at least the tolerance away in latitude or in
      longitude, which are exactly those not near the coordinate. */
  function RemoveFavorite(favorites: seq<GeoLocation>, lat: real, lon: real): (r: seq<GeoLocation>)
    ensures IsSubsequence(r, favorites)
    ensures forall i :: 0 <= i < |r| ==> !Near(r[i], lat, lon)
    ensures forall f | f in favorites ::
      multiset(r)[f] == if Near(f, lat, lon) then 0 else multiset(favorites)[f]
  {
    Filter(favorites, Keeps(lat, lon))
  }

  /** The removal filter as the source writes it: at least the tolerance
      away in latitude or in longitude. */
  function Keeps(lat: real, lon: real): GeoLocation -> bool {
    (fav: GeoLocation) => Abs(fav.latitude - lat) >= Tolerance || Abs(fav.longitude - lon) >= Tolerance
  }

  /** After removal the place is no longer a favorite. */
  lemma RemovedIsNotFavorite(favorites: seq<GeoLocation>, loc: GeoLocation)
    ensures !IsFavorite(Some(loc), RemoveFavorite(favorites, loc.latitude, loc.longitude))
  {
  }

  /** The nickname a confirmed add stores: the trimmed answer, or when
      that is empty the place's nickname, or failing that its name. */
  function FavoriteName(loc: GeoLocation, answer: string): (r: string)
    ensures Trim(answer) != "" ==> r == Trim(answer)
    ensures Trim(answer) == "" && Truthy(loc.customName) ==> r == loc.customName.value
    ensures Trim(answer) == "" && !Truthy(loc.customName) ==> r == loc.name
  {
    var defaultName := Or(loc.customName, loc.name);
    Or(Some(Trim(answer)), defaultName)
  }

  /** The star button. Without a place nothing changes. A saved place is
      removed, with every favorite near it, and nothing is added. Otherwise
      the nickname prompt's answer decides: cancelling leaves the list
      unchanged, and confirming appends the place, renamed, after the
      untouched existing entries. */
  function ToggleFavorite(location: Option<GeoLocation>, favorites: seq<GeoLocation>, answer: Option<string>): (r: seq<GeoLocation>)
    ensures location.None? ==> r == favorites
    ensures IsFavorite(location, favorites) ==>
      && r == RemoveFavorite(favorites, location.value.latitude, location.value.longitude)
      && |r| < |favorites| && IsSubsequence(r, favorites) && !IsFavorite(location, r)
    ensures location.Some? && !IsFavorite(location, favorites) && answer.None? ==> r == favorites
    ensures location.Some? && !IsFavorite(location, favorites) && answer.Some? ==>
      && |r| == |favorites| + 1
      && r[..|favorites|] == favorites
      && r[|favorites|] == location.value.(customName := Some(FavoriteName(location.value, answer.value)))
      && IsFavorite(location, r)
  {
    match location
    case None => favorites
    case Some(loc) =>
      if IsFavorite(location, favorites) then
        var r := RemoveFavorite(favorites, loc.latitude, loc.longitude);
        var i :| 0 <= i < |favorites| && Matches(favorites[i], loc);
        assert multiset(r)[favorites[i]] == 0;
        assert favorites[i] in multiset(favorites);
        MultisetSizeDrops(r, favorites, favorites[i]);
        r
      else
        match answer
        case None => favorites
        case Some(text) =>
          var r := favorites + [loc.(customName := Some(FavoriteName(loc, text)))];
          assert Matches(r[|favorites|], loc);
          r
  }

  /** A sub-multiset missing an element of the whole is strictly smaller. */
  lemma MultisetSizeDrops<T>(r: seq<T>, xs: seq<T>, x: T)
    requires multiset(r) <= multiset(xs)
    requires x in multiset(xs) && multiset(r)[x] == 0
    ensures |r| < |xs|
  {
    var m := multiset(r) + multiset{x};
    assert m <= multiset(xs);
    assert multiset(xs) == m + (multiset(xs) - m);
    assert |multiset(xs)| == |m| + |multiset(xs) - m|;
  }

  /** No two favorites denote the same place. */
  ghost predicate NoTwoMatch(favorites: seq<GeoLocation>) {
    Pairwise(favorites, (a, b) => !Matches(a, b))
  }

  /** Removing by any coordinate keeps the favorites pairwise distinct. */
  lemma RemoveKeepsNoTwoMatch(favorites: seq<GeoLocation>, lat: real, lon: real)
    requires NoTwoMatch(favorites)
    ensures NoTwoMatch(RemoveFavorite(favorites, lat, lon))
  {
    SubsequencePairwise(RemoveFavorite(favorites, lat, lon), favorites, (a, b) => !Matches(a, b));
  }

  /** The star button keeps the favorites pairwise distinct. */
  lemma ToggleKeepsNoTwoMatch(location: Option<GeoLocation>, favorites: seq<GeoLocation>, answer: Option<string>)
    requires NoTwoMatch(favorites)
    ensures NoTwoMatch(ToggleFavorite(location, favorites, answer))
  {
    var r := ToggleFavorite(location, favorites, answer);
    if location.Some? {
      var loc := location.value;
      if IsFavorite(location, favorites) {
        RemoveKeepsNoTwoMatch(favorites, loc.latitude, loc.longitude);
      } else if answer.Some? {
        forall i, j | 0 <= i < j < |r| ensures !Matches(r[i], r[j]) {
          assert r[i] == favorites[i];
          if j < |favorites| {
            assert r[j] == favorites[j];
          } else {
            assert !Matches(favorites[i], loc);
          }
        }
      }
    }
  }

  /** Confirming the star on a new place and then pressing it again gives
      back the original list. */
  lemma AddThenToggleRestores(loc: GeoLocation, favorites: seq<GeoLocation>, answer: string, again: Option<string>)
    requires !IsFavorite(Some(loc), favorites)
    ensures ToggleFavorite(Some(loc), ToggleFavorite(Some(loc), favorites, Some(answer)), again) == favorites
  {
    var added := ToggleFavorite(Some(loc), favorites, Some(answer));
    var entry := added[|favorites|];
    assert added == favorites + [entry];
    var keep := Keeps(loc.latitude, loc.longitude);
    FilterAppend(favorites, [entry], keep);
    forall i | 0 <= i < |favorites| ensures keep(favorites[i]) {
      assert !Matches(favorites[i], loc);
    }
    FilterKeepsAll(favorites, keep);
    assert !keep(entry);
    assert Filter([entry], keep) == [];
    assert favorites + [] == favorites;
  }

  // ---------------------------------------------------------------------------
  // Language switch

  /** The generic place name as the shell's translation table spells the
      Spanish entry: the file stores it mis-encoded. */
  function TableDefaultName(lang: Lang): string {
    match lang
    case Es => "Tu Ubicaci\U{221A}\U{2265}n"
    case En => "Your Location"
  }

  datatype Shell = Shell(lang: Lang, location: Option<GeoLocation>)

  /** The language switch with a given table of generic names: the
      language flips, and the place is renamed to the new language's
      generic name exactly when its name is either language's generic
      name; nothing else about it changes. */
  function SwitchLanguage(defaults: Lang -> string, s: Shell): (r: Shell)
    ensures r.lang == Flip(s.lang) && r.location.Some? == s.location.Some?
    ensures s.location.Some? ==>
      var loc := s.location.value;
      && r.location.value == loc.(name := r.location.value.name)
      && (loc.name == defaults(Es) || loc.name == defaults(En) ==> r.location.value.name == defaults(r.lang))
      && (loc.name != defaults(Es) && loc.name != defaults(En) ==> r.location.value.name == loc.name)
  {
    var newLang := Flip(s.lang);
    match s.location
    case None => Shell(newLang, None)
    case Some(loc) =>
      if loc.name == defaults(Es) || loc.name == defaults(En) then
        Shell(newLang, Some(loc.(name := defaults(newLang))))
      else
        Shell(newLang, Some(loc))
  }

  /** The switch as written, with the mis-encoded table: a place the
      reverse geocoder called "Tu Ubicación" keeps that name in English. */
  function ToggleLanguageAsWritten(s: Shell): (r: Shell)
    ensures r.lang == Flip(s.lang)
    ensures s.location.Some? && s.location.value.name == WeatherService.DefaultLocationName(Es) ==>
      r.location == s.location
  {
    assert |TableDefaultName(Es)| != |WeatherService.DefaultLocationName(Es)|;
    SwitchLanguage(TableDefaultName, s)
  }

  /** The corrected switch, using the names the reverse geocoder produces. */
  function ToggleLanguage(s: Shell): (r: Shell)
    ensures r.lang == Flip(s.lang) && r.location.Some? == s.location.Some?
    ensures s.location.Some? && s.location.value.name == WeatherService.DefaultLocationName(s.lang) ==>
      r.location.value.name == WeatherService.DefaultLocationName(r.lang)
  {
    SwitchLanguage(WeatherService.DefaultLocationName, s)
  }

  /** As written, the Spanish generic name the reverse geocoder produced is
      not recognised, so after switching to English the place is still
      called "Tu Ubicación". */
  lemma ToggleLanguageAsWrittenKeepsSpanishName(loc: GeoLocation)
    requires loc.name == WeatherService.DefaultLocationName(Es)
    ensures ToggleLanguageAsWritten(Shell(Es, Some(loc))).location.value.name ==
            WeatherService.DefaultLocationName(Es)
    ensures ToggleLanguage(Shell(Es, Some(loc))).location.value.name == "Your Location"
  {
    assert |TableDefaultName(Es)| != |loc.name|;
    assert |TableDefaultName(En)| != |loc.name|;
  }

  /** Switching twice restores the shell when the place's name is not the
      other language's generic name. */
  lemma ToggleLanguageTwice(s: Shell)
    requires s.location.Some? ==>
      s.location.value.name != WeatherService.DefaultLocationName(Flip(s.lang))
    ensures ToggleLanguage(ToggleLanguage(s)) == s
  {
    if s.location.Some? {
      var loc := s.location.value;
      var once := ToggleLanguage(s).location.value;
      if loc.name == WeatherService.DefaultLocationName(s.lang) {
        assert once.name == WeatherService.DefaultLocationName(Flip(s.lang));
        assert Flip(Flip(s.lang)) == s.lang;
      } else {
        assert once == loc;
      }
    }
  }

  // ---------------------------------------------------------------------------
  // Search, outfit temperature and daily cards

  /** The search box issues a search only for queries longer than two
      UTF-16 code units and otherwise clears the results. */
  function SearchResults(query: string, response: Outcome<WeatherService.SearchResponse>): (r: seq<GeoLocation>)
    ensures Utf16Length(query) <= 2 ==> r == []
    ensures Utf16Length(query) > 2 ==> r == WeatherService.SearchCity(query, response)
  {
    if Utf16Length(query) > 2 then WeatherService.SearchCity(query, response) else []
  }

  /** A query the box sends always passes the client's own length guard,
      so the box's threshold alone decides; a query of two code units,
      which the client would accept, is never sent. */
  lemma SearchGuardsAgree(query: string, response: Outcome<WeatherService.SearchResponse>)
    ensures Utf16Length(query) > 2 ==> Utf16Length(query) >= WeatherService.MinQueryLength
    ensures Utf16Length(query) == 2 ==> SearchResults(query, response) == []
  {
  }

  /** Lengths are code units, not characters: two astral characters (each
      a surrogate pair) make a query of four units that is sent, while a
      single one makes two units and is not. */
  lemma AstralQueryLength(item: WeatherService.GeoResult)
    ensures var query := "\U{1F327}\U{1F327}";
            var response := Resolved(WeatherService.SearchResponse(Some([item])));
            |query| == 2 && Utf16Length(query) == 4 && |SearchResults(query, response)| == 1
    ensures var query := "\U{1F327}";
            Utf16Length(query) == 2 && SearchResults(query, Resolved(WeatherService.SearchResponse(Some([item])))) == []
  {
    var query := "\U{1F327}\U{1F327}";
    assert Utf16Length(query[1..]) == 2;
  }

  /** The temperature the outfit widget gets: the apparent temperature
      unless it is missing or zero, then the actual one. */
  function OutfitTemperature(current: CurrentWeather): (t: real)
    ensures current.apparent.Some? && current.apparent.value != 0.0 ==> t == current.apparent.value
    ensures current.apparent.None? || current.apparent.value == 0.0 ==> t == current.temperature
  {
    if current.apparent.Some? && current.apparent.value != 0.0 then current.apparent.value
    else current.temperature
  }

  /** Over a fetched forecast, the outfit reads the actual temperature when
      there is no hourly block; otherwise the hourly apparent temperature
      at the index `getWeather` picks, unless that is missing or zero. */
  lemma OutfitUsesDerivedApparent(response: Outcome<WeatherData>, now: int)
    ensures WeatherService.GetWeather(response, now).Some? ==>
      var data := response.value;
      var t := OutfitTemperature(WeatherService.GetWeather(response, now).value.current);
      && (data.hourly.None? ==> t == data.current.temperature)
      && (data.hourly.Some? ==>
            var h := data.hourly.value;
            var a := At(h.apparent, WeatherService.ApparentIndex(h.time, data.current.time, now));
            t == if a.Some? && a.value != 0.0 then a.value else data.current.temperature)
  {
  }

  /** The outfit advice for the current snapshot; the day flag is
      `is_day === 1`. */
  function OutfitAdvice(current: CurrentWeather): OutfitWidget.Advice {
    OutfitWidget.Choose(current.weathercode, OutfitTemperature(current), current.isDay == 1)
  }

  /** A "feels like" of exactly zero is ignored: on a clear 20 degree day
      the outfit is light clothes, although zero would call for a scarf. */
  lemma ZeroApparentIgnored()
    ensures OutfitAdvice(CurrentWeather(20.0, 5.0, 0, 1, 0, Some(0.0))) == OutfitWidget.LightClothes
    ensures OutfitWidget.Choose(0, 0.0, true) == OutfitWidget.ScarfNeeded
  {
  }

  /** One card of the coming days. */
  datatype DayCard = DayCard(time: int, maxTemp: Option<real>, minTemp: Option<real>, code: Option<int>)

  /** The cards for days 1 to 6 (today is left out), each reading the
      daily arrays at its own day's index. */
  function DailyCards(d: Daily): (cards: seq<DayCard>)
    ensures |cards| == Max(0, Min(7, |d.time|) - 1)
    ensures forall i :: 0 <= i < |cards| ==>
      && cards[i].time == d.time[i + 1]
      && cards[i].maxTemp == At(d.temperatureMax, i + 1)
      && cards[i].minTemp == At(d.temperatureMin, i + 1)
      && cards[i].code == At(d.weathercode, i + 1)
  {
    var days := Slice(d.time, 1, 7);
    seq(|days|, i requires 0 <= i < |days| =>
      DayCard(days[i], At(d.temperatureMax, i + 1), At(d.temperatureMin, i + 1), At(d.weathercode, i + 1)))
  }

  /** With a week of aligned data there are six cards, all complete. */
  lemma WeekOfCards(d: Daily)
    requires DailyAligned(d) && |d.time| >= 7
    ensures |DailyCards(d)| == 6
    ensures forall c :: c in DailyCards(d) ==> c.maxTemp.Some? && c.minTemp.Some? && c.code.Some?
  {
    var cards := DailyCards(d);
    forall c | c in cards ensures c.maxTemp.Some? && c.minTemp.Some? && c.code.Some? {
      var i :| 0 <= i < |cards| && cards[i] == c;
    }
  }
}

=== FILE: atmospheric_background.dfy ===
/** The full-screen animated background: which of its layers (lightning
    flash, rain, snow, drifting clouds, sun rays) are switched on. */
module AtmosphericBackground {
  import opened Wmo
  import WeatherIcon

  datatype Layers = Layers(flash: bool, rain: bool, snow: bool, clouds: bool, sunRays: bool)

  /** The background's broader notion of cloudiness: mainly clear, partly
      cloudy, overcast and fog. */
  predicate IsCloudy(code: int) {
    code == 1 || code == 2 || code == 3 || code == 45 || code == 48
  }

  /** The active layers. Thunder always brings the rain layer but no clouds
      of its own; sun rays only shine on a clear day and never together with
      any other layer; rain and snow never fall together. */
  function ActiveLayers(code: int, isDay: bool): (l: Layers)
    ensures l.flash ==> l.rain && !l.clouds
    ensures l.sunRays ==> !l.flash && !l.rain && !l.snow && !l.clouds
    ensures !(l.rain && l.snow)
    ensures l.snow ==> l.clouds
    ensures (l.rain && !l.flash) ==> l.clouds
    ensures l.sunRays <==> ClearSky(code) && isDay
  {
    Layers(
      flash := IsThunder(code),
      rain := IsRain(code) || IsThunder(code),
      snow := IsSnow(code),
      clouds := IsCloudy(code) || IsRain(code) || IsSnow(code),
      sunRays := ClearSky(code) && isDay)
  }

  /** Each layer is on exactly for the codes the component tests for it. */
  lemma LayerConditions(code: int, isDay: bool)
    ensures ActiveLayers(code, isDay).flash <==> code >= 95
    ensures ActiveLayers(code, isDay).rain <==> IsRain(code) || code >= 95
    ensures ActiveLayers(code, isDay).snow <==> IsSnow(code)
    ensures ActiveLayers(code, isDay).clouds <==>
      code in {1, 2, 3, 45, 48} || IsRain(code) || IsSnow(code)
  {
  }

  /** The sun rays shine exactly when the weather icon draws the bare sun for
      a clear sky. */
  lemma SunRaysMatchIcon(code: int, isDay: bool)
    ensures ActiveLayers(code, isDay).sunRays <==>
      WeatherIcon.Classify(code) == WeatherIcon.Clear &&
      WeatherIcon.Render(code, if isDay then 1 else 0) == WeatherIcon.Bare(WeatherIcon.Sun)
  {
  }

  /** Under a thunderstorm the icon draws a cloud but the background shows
      none. */
  lemma ThunderIconCloudButNoBackgroundCloud(code: int, isDay: bool)
    requires IsThunder(code)
    ensures WeatherIcon.Render(code, if isDay then 1 else 0) == WeatherIcon.ThunderCloud
    ensures !ActiveLayers(code, isDay).clouds
  {
  }

  /** Codes in no category leave the background empty, day or night. */
  lemma UncategorizedIsEmpty(code: int, isDay: bool)
    requires WeatherIcon.Classify(code) == WeatherIcon.Uncategorized
    ensures ActiveLayers(code, isDay) == Layers(false, false, false, false, false)
  {
  }
}

=== FILE: cat_avatar.dfy ===
/** The cat mascot: the shared mascot logic plus the cat's own idle actions
    (ear flicks, a happy wiggle, looking around) and its swaying tail. The
    idle action is chosen at random by a timer; here it is an input. */
module CatAvatar {
  import opened Wmo
  import opened Mascot

  /** The idle action currently playing; `Still` is the source's 'none'. */
  datatype Idle = Still | EarLeft | EarRight | Wiggle | Look

  datatype Pose = Pose(
    body: Anim,
    face: Face,
    scarf: bool,
    umbrella: bool,
    tailSway: bool,
    leftEarTwitch: bool,
    rightEarTwitch: bool,
    lookAround: bool)

  /** The cat as drawn. A wiggle replaces the body animation only while the
      cat is awake; the tail sways only while awake; the ears flick on their
      idle actions even in sleep; looking around only shows on the normal
      face. */
  function CatPose(code: int, temperature: real, isDay: bool, idle: Idle): (p: Pose)
    ensures p.body == Float <==> Sleeping(code, isDay)
    ensures p.body == HappyWiggle <==> idle == Wiggle && !Sleeping(code, isDay)
    ensures p.body != Hop
    ensures idle != Wiggle ==> p.body == BaseAnimation(code, temperature, isDay)
    ensures p.face == FaceFor(code, temperature, isDay)
    ensures p.tailSway <==> p.face != Asleep
    ensures p.leftEarTwitch <==> idle == EarLeft
    ensures p.rightEarTwitch <==> idle == EarRight
    ensures p.lookAround <==> idle == Look && p.face == Normal
    ensures p.scarf <==> temperature < 12.0 || IsSnow(code)
    ensures p.umbrella <==> IsRain(code)
  {
    var sleeping := Sleeping(code, isDay);
    var base := BaseAnimation(code, temperature, isDay);
    var face := FaceFor(code, temperature, isDay);
    Pose(
      body := if idle == Wiggle && !sleeping then HappyWiggle else base,
      face := face,
      scarf := WearsScarf(code, temperature),
      umbrella := HoldsUmbrella(code),
      tailSway := !sleeping,
      leftEarTwitch := idle == EarLeft,
      rightEarTwitch := idle == EarRight,
      lookAround := idle == Look && face == Normal)
  }

  /** A sleeping cat keeps floating whatever idle action fires. */
  lemma SleepingCatIgnoresWiggle(code: int, temperature: real, idle: Idle)
    requires !IsThunder(code)
    ensures CatPose(code, temperature, false, idle).body == Float
    ensures CatPose(code, temperature, false, idle).face == Asleep
    ensures !CatPose(code, temperature, false, idle).tailSway
  {
  }
}

=== FILE: gemini_proxy.dfy ===
/** The serverless proxy endpoint: it sets the CORS headers, answers the
    preflight, accepts only POST, checks the server key and the request's
    fields, and relays one SDK call. The server key and the SDK call are
    inputs. */
module GeminiProxy {
  import opened Js
  import opened GeminiService

  /** A JSON value of the request body, as far as truthiness goes. */
  datatype Json = Null | Bool(b: bool) | Num(n: real) | Str(s: string) | Obj

  /** JavaScript truthiness; objects and arrays are always truthy. */
  predicate JsonTruthy(v: Option<Json>) {
    match v
    case None => false
    case Some(Null) => false
    case Some(Bool(b)) => b
    case Some(Num(n)) => n != 0.0
    case Some(Str(s)) => s != ""
    case Some(Obj) => true
  }

  /** The fields destructured from the parsed request body. */
  datatype RequestBody = RequestBody(model: Option<Json>, contents: Option<Json>, config: Option<Json>)

  /** The HTTP method is `verb`. */
  datatype Request = Request(verb: string, body: RequestBody)

  datatype ResponseBody =
    | NoBody
    | ErrorJson(error: string)
    | Generated(text: Option<string>, groundingMetadata: Option<GroundingMetadata>)

  datatype Response = Response(status: int, headers: seq<(string, string)>, body: ResponseBody)

  /** The CORS headers, set before anything else. */
  const CorsHeaders: seq<(string, string)> := [
    ("Access-Control-Allow-Credentials", "true"),
    ("Access-Control-Allow-Origin", "*"),
    ("Access-Control-Allow-Methods", "GET,OPTIONS,PATCH,DELETE,POST,PUT"),
    ("Access-Control-Allow-Headers",
     "X-CSRF-Token, X-Requested-With, Accept, Accept-Version, Content-Length, Content-MD5, Content-Type, Date, X-Api-Version")
  ]

  /** The handler. The checks run in this order: preflight, method, server
      key, required fields; then the SDK is called and its text and first
      grounding are relayed, or its failure becomes a 500 carrying the
      failure's message. Every response carries the CORS headers. */
  function Handle(req: Request, serverKey: Option<string>, sdk: Outcome<SdkResponse>): (r: Response)
    ensures r.headers == CorsHeaders
    ensures r.status in {200, 400, 405, 500}
    ensures req.verb == "OPTIONS" ==> r.status == 200 && r.body == NoBody
    ensures req.verb != "OPTIONS" && req.verb != "POST" ==>
      r.status == 405 && r.body == ErrorJson("Method not allowed")
    ensures req.verb == "POST" && !Truthy(serverKey) ==>
      r.status == 500 && r.body == ErrorJson("Server API Key not configured")
    ensures (&& req.verb == "POST" && Truthy(serverKey)
             && (!JsonTruthy(req.body.model) || !JsonTruthy(req.body.contents))) ==>
      r.status == 400 && r.body == ErrorJson("Missing required parameters")
    ensures r.status == 200 && req.verb == "POST" ==>
      sdk.Resolved? && r.body == Generated(sdk.value.text, FirstGrounding(sdk.value.candidates))
    ensures r.status == 200 <==>
      req.verb == "OPTIONS" ||
      (&& req.verb == "POST" && Truthy(serverKey)
       && JsonTruthy(req.body.model) && JsonTruthy(req.body.contents) && sdk.Resolved?)
    ensures r.status == 500 && Truthy(serverKey) ==>
      sdk.Rejected? && r.body == ErrorJson(Or(sdk.message, "Internal Server Error"))
  {
    if req.verb == "OPTIONS" then Response(200, CorsHeaders, NoBody)
    else if req.verb != "POST" then Response(405, CorsHeaders, ErrorJson("Method not allowed"))
    else if !Truthy(serverKey) then Response(500, CorsHeaders, ErrorJson("Server API Key not configured"))
    else if !JsonTruthy(req.body.model) || !JsonTruthy(req.body.contents) then
      Response(400, CorsHeaders, ErrorJson("Missing required parameters"))
    else match sdk
      case Rejected(message) =>
        Response(500, CorsHeaders, ErrorJson(Or(message, "Internal Server Error")))
      case Resolved(response) =>
        Response(200, CorsHeaders, Generated(response.text, FirstGrounding(response.candidates)))
  }

  /** What the client makes of a proxy response: an error object parses to
      a result without text, and an empty body does not parse. */
  function Receive(r: Response): ProxyReply {
    match r.body
    case NoBody => ProxyReply(r.status, Rejected(None))
    case ErrorJson(_) => ProxyReply(r.status, Resolved(NoText))
    case Generated(text, grounding) => ProxyReply(r.status, Resolved(GenResult(text, grounding)))
  }

  /** The request the client posts for a model and a prompt. */
  function ClientRequest(model: string, prompt: string, config: Json): Request {
    Request("POST", RequestBody(Some(Str(model)), Some(Str(prompt)), Some(config)))
  }

  /** End to end, without a local key: a call the client posts yields the
      SDK's text and grounding exactly when the server has a key and the
      SDK call succeeds, and the `{ text: undefined }` fallback otherwise. */
  lemma ProxyRoundTrip(model: string, prompt: string, config: Json,
                       serverKey: Option<string>, sdk: Outcome<SdkResponse>, clientSdk: Outcome<SdkResponse>)
    requires model != "" && prompt != ""
    ensures var reply := Receive(Handle(ClientRequest(model, prompt, config), serverKey, sdk));
      GenerateSecurely(None, clientSdk, Resolved(reply)) ==
        if Truthy(serverKey) && sdk.Resolved?
        then Resolved(GenResult(sdk.value.text, FirstGrounding(sdk.value.candidates)))
        else Resolved(NoText)
  {
  }
}

=== FILE: gemini_service.dfy ===
/** The AI client. A call goes either straight to the SDK, when a local
    development key is configured, or through the application's own proxy
    endpoint. The public helpers turn the call's outcome into display text
    with localized fallbacks. The SDK call and the proxy exchange are input
    outcomes; prompts are not modelled. */
module GeminiService {
  import opened Js
  import opened Types
  import opened Wmo
  import WeatherIcon

  // ---------------------------------------------------------------------------
  // Response shapes

  /** A `maps` or `web` source of a grounding chunk. */
  datatype Link = Link(uri: Option<string>, title: Option<string>)

  /** One grounding chunk; either source may be absent. */
  datatype Chunk = Chunk(maps: Option<Link>, web: Option<Link>)

  datatype GroundingMetadata = GroundingMetadata(groundingChunks: Option<seq<Chunk>>)

  datatype Candidate = Candidate(groundingMetadata: Option<GroundingMetadata>)

  /** What the SDK's `generateContent` resolves to. */
  datatype SdkResponse = SdkResponse(text: Option<string>, candidates: Option<seq<Candidate>>)

  /** `{ text, groundingMetadata }`, what a call hands back to its caller. */
  datatype GenResult = GenResult(text: Option<string>, groundingMetadata: Option<GroundingMetadata>)

  /** The graceful fallback `{ text: undefined }`. */
  const NoText := GenResult(None, None)

  /** `candidates?.[0]?.groundingMetadata`. */
  function FirstGrounding(candidates: Option<seq<Candidate>>): (r: Option<GroundingMetadata>)
    ensures r.Some? <==>
      candidates.Some? && |candidates.value| > 0 && candidates.value[0].groundingMetadata.Some?
    ensures r.Some? ==> r == candidates.value[0].groundingMetadata
  {
    match candidates
    case None => None
    case Some(cs) => if cs == [] then None else cs[0].groundingMetadata
  }

  /** The result the SDK's response is reduced to. */
  function FromSdk(response: SdkResponse): GenResult {
    GenResult(response.text, FirstGrounding(response.candidates))
  }

  // ---------------------------------------------------------------------------
  // generateContentSecurely

  datatype Mode = Direct | Proxy

  /** `s.startsWith(prefix)`. */
  predicate StartsWith(s: string, prefix: string) {
    prefix <= s
  }

  /** The prefix every Google API key carries. */
  const KeyPrefix := "AIza"

  /** The SDK is called directly only with a local key that looks like a
      Google API key; otherwise the proxy is used. */
  function SelectMode(localKey: Option<string>): (m: Mode)
    ensures m == Direct <==>
      localKey.Some? && |localKey.value| >= 4 && localKey.value[..4] == ['A', 'I', 'z', 'a']
  {
    if localKey.Some? && StartsWith(localKey.value, KeyPrefix) then Direct else Proxy
  }

  /** The proxy's HTTP reply as the client sees it: the status and the
      outcome of parsing the body as JSON. */
  datatype ProxyReply = ProxyReply(status: int, body: Outcome<GenResult>)

  /** `response.ok`. */
  predicate IsOk(status: int) {
    200 <= status <= 299
  }

  /** One call. In direct mode the SDK's result is reduced to text and the
      first candidate's grounding, and an SDK failure is rethrown. In proxy
      mode a network failure, a non-2xx status or an unparseable body all
      become the `{ text: undefined }` fallback, and a parsed body is
      returned as it is. */
  function GenerateSecurely(localKey: Option<string>, sdk: Outcome<SdkResponse>, proxy: Outcome<ProxyReply>): (r: Outcome<GenResult>)
    ensures r.Rejected? <==> SelectMode(localKey) == Direct && sdk.Rejected?
    ensures r.Rejected? ==> r.message == sdk.message
    ensures SelectMode(localKey) == Direct && sdk.Resolved? ==>
      r == Resolved(GenResult(sdk.value.text, FirstGrounding(sdk.value.candidates)))
    ensures SelectMode(localKey) == Proxy ==>
      if proxy.Resolved? && IsOk(proxy.value.status) && proxy.value.body.Resolved?
      then r == proxy.value.body
      else r == Resolved(NoText)
  {
    match SelectMode(localKey)
    case Direct =>
      (match sdk
       case Rejected(m) => Rejected(m)
       case Resolved(response) => Resolved(FromSdk(response)))
    case Proxy =>
      (match proxy
       case Rejected(_) => Resolved(NoText)
       case Resolved(reply) =>
         if !IsOk(reply.status) then Resolved(NoText)
         else match reply.body
           case Rejected(_) => Resolved(NoText)
           case Resolved(data) => Resolved(data))
  }

  /** Whatever the proxy does, a proxied call never fails. */
  lemma ProxyNeverThrows(localKey: Option<string>, sdk: Outcome<SdkResponse>, proxy: Outcome<ProxyReply>)
    requires SelectMode(localKey) == Proxy
    ensures GenerateSecurely(localKey, sdk, proxy).Resolved?
  {
  }

  // ---------------------------------------------------------------------------
  // getCozyMessage

  function CozyDefault(lang: Lang): string {
    match lang
    case Es => "\U{00A1}Que tengas un d\U{00ED}a adorable! \U{2728}"
    case En => "Have a lovely day! \U{2728}"
  }

  function CozyError(lang: Lang): string {
    match lang
    case Es => "\U{00A1}Disfruta de este momento m\U{00E1}gico! \U{2728}\U{1F338}"
    case En => "Enjoy this magical moment! \U{2728}\U{1F338}"
  }

  /** The greeting: the generated text when non-empty, else the localized
      default; a failed call gives the localized error greeting. Never
      empty. */
  function CozyMessage(lang: Lang, call: Outcome<GenResult>): (r: string)
    ensures r != ""
    ensures call.Rejected? ==> r == CozyError(lang)
    ensures call.Resolved? && Truthy(call.value.text) ==> r == call.value.text.value
    ensures call.Resolved? && !Truthy(call.value.text) ==> r == CozyDefault(lang)
  {
    match call
    case Rejected(_) => CozyError(lang)
    case Resolved(result) => Or(result.text, CozyDefault(lang))
  }

  /** The error greeting is shown only in direct mode: through the proxy it
      can only come back as the generated text itself. */
  lemma CozyErrorOnlyInDirectMode(lang: Lang, localKey: Option<string>, sdk: Outcome<SdkResponse>, proxy: Outcome<ProxyReply>)
    requires SelectMode(localKey) == Proxy
    ensures var call := GenerateSecurely(localKey, sdk, proxy);
      CozyMessage(lang, call) == CozyError(lang) ==> call.value.text == Some(CozyError(lang))
  {
  }

  // ---------------------------------------------------------------------------
  // getQuickActivity

  function QuickDefault(lang: Lang): string {
    match lang
    case Es => "Relax en casa"
    case En => "Relax at home"
  }

  /** The suggested activity: the generated text with surrounding
      whitespace removed when anything is left, else the localized default,
      also on failure. Never empty and never padded with whitespace. */
  function QuickActivity(lang: Lang, call: Outcome<GenResult>): (r: string)
    ensures r != "" && !IsSpace(r[0]) && !IsSpace(r[|r| - 1])
    ensures call.Rejected? ==> r == QuickDefault(lang)
    ensures call.Resolved? && call.value.text.Some? && Trim(call.value.text.value) != "" ==>
      r == Trim(call.value.text.value)
    ensures call.Resolved? && (call.value.text.None? || AllSpace(call.value.text.value)) ==>
      r == QuickDefault(lang)
  {
    match call
    case Rejected(_) => QuickDefault(lang)
    case Resolved(result) =>
      var trimmed := if result.text.Some? then Some(Trim(result.text.value)) else None;
      Or(trimmed, QuickDefault(lang))
  }

  /** Trimming the suggestion once more changes nothing. */
  lemma QuickActivityIsTrimmed(lang: Lang, call: Outcome<GenResult>)
    ensures Trim(QuickActivity(lang, call)) == QuickActivity(lang, call)
  {
    var r := QuickActivity(lang, call);
    if call.Resolved? && call.value.text.Some? && Trim(call.value.text.value) != "" {
      TrimIdempotent(call.value.text.value);
    } else {
      assert r == QuickDefault(lang);
    }
  }

  /** The weather the prompt calls bad: precipitation, a thunderstorm or
      below 5 degrees. */
  predicate IsBadWeather(code: int, temperature: real) {
    IsRain(code) || IsSnow(code) || IsThunder(code) || temperature < 5.0
  }

  /** `isBadWeather` in terms of the raw code ranges. */
  lemma BadWeatherRanges(code: int, temperature: real)
    ensures IsBadWeather(code, temperature) <==>
      || 51 <= code <= 67 || 80 <= code <= 82
      || 71 <= code <= 77 || 85 <= code <= 86
      || code >= 95 || temperature < 5.0
  {
  }

  /** The prompt calls the weather bad exactly when the icon draws a thunder
      cloud, snow or rain, or when it is colder than 5 degrees: the prompt
      and the icon read the same code ranges. */
  lemma BadWeatherMatchesIcon(code: int, temperature: real, isDay: int)
    ensures IsBadWeather(code, temperature) <==>
      || WeatherIcon.Classify(code) == WeatherIcon.Thunder
      || WeatherIcon.Classify(code) == WeatherIcon.Snow
      || WeatherIcon.Classify(code) == WeatherIcon.Rain
      || temperature < 5.0
    ensures IsBadWeather(code, temperature) <==>
      || WeatherIcon.Render(code, isDay) == WeatherIcon.ThunderCloud
      || WeatherIcon.Render(code, isDay) == WeatherIcon.SnowCloud
      || WeatherIcon.Render(code, isDay) == WeatherIcon.RainCloud
      || temperature < 5.0
  {
  }

  // ---------------------------------------------------------------------------
  // getLocalRecommendations

  /** The recommendations: nothing when the call fails, otherwise its text
      and grounding, whatever they are. */
  function LocalRecommendations(call: Outcome<GenResult>): (r: Option<GenResult>)
    ensures r.None? <==> call.Rejected?
    ensures r.Some? ==> r.value.text == call.value.text && r.value.groundingMetadata == call.value.groundingMetadata
  {
    match call
    case Rejected(_) => None
    case Resolved(result) => Some(GenResult(result.text, result.groundingMetadata))
  }

  /** Through the proxy the recommendations are never missing; a proxy
      failure shows up as missing text instead. */
  lemma ProxyRecommendationsPresent(localKey: Option<string>, sdk: Outcome<SdkResponse>, proxy: Outcome<ProxyReply>)
    requires SelectMode(localKey) == Proxy
    ensures LocalRecommendations(GenerateSecurely(localKey, sdk, proxy)).Some?
    ensures proxy.Rejected? ==> LocalRecommendations(GenerateSecurely(localKey, sdk, proxy)) == Some(NoText)
  {
  }
}

=== FILE: hourly_forecast.dfy ===
/** The hourly strip: up to 24 hours starting at the first hour that is not
    yet past, each cell reading the parallel hourly arrays at its absolute
    index. */
module HourlyForecast {
  import opened Js
  import opened JsArray
  import opened Types

  /** The number of hours shown. */
  const WindowSize := 24

  /** One cell of the strip. A parallel array shorter than `time` leaves
      the cell's field undefined. */
  datatype HourCell = HourCell(
    time: int,
    temperature: Option<real>,
    code: Option<int>,
    isDay: Option<int>)

  /** The first hour at or after the clock, or hour 0 when every hour is
      already past. */
  function StartIndex(times: seq<int>, now: int): (k: nat)
    ensures |times| > 0 ==> k < |times|
    ensures (exists i :: 0 <= i < |times| && times[i] >= now) ==>
      times[k] >= now && forall j :: 0 <= j < k ==> times[j] < now
    ensures (forall i :: 0 <= i < |times| ==> times[i] < now) ==> k == 0
  {
    var index := FindIndex(times, t => t >= now);
    if index == -1 then 0 else index
  }

  /** The cells shown: the hours from `StartIndex` on, at most 24 of them,
      in order, each with the readings at its own absolute index. */
  function Window(h: Hourly, now: int): (cells: seq<HourCell>)
    ensures var start := StartIndex(h.time, now);
      && |cells| == Min(WindowSize, |h.time| - start)
      && forall i :: 0 <= i < |cells| ==>
           && cells[i].time == h.time[start + i]
           && cells[i].temperature == At(h.temperature, start + i)
           && cells[i].code == At(h.weathercode, start + i)
           && cells[i].isDay == At(h.isDay, start + i)
  {
    var start := StartIndex(h.time, now);
    var shown := Slice(h.time, start, start + WindowSize);
    seq(|shown|, i requires 0 <= i < |shown| =>
      HourCell(shown[i], At(h.temperature, start + i), At(h.weathercode, start + i), At(h.isDay, start + i)))
  }

  /** When some hour is still ahead, the strip starts at the first such
      hour, and every earlier hour is left out. */
  lemma WindowStartsAtNow(h: Hourly, now: int)
    requires exists i :: 0 <= i < |h.time| && h.time[i] >= now
    ensures |Window(h, now)| > 0
    ensures Window(h, now)[0].time >= now
    ensures forall c :: c in Window(h, now) ==>
      exists i :: StartIndex(h.time, now) <= i < |h.time| && c.time == h.time[i]
  {
    var cells := Window(h, now);
    var start := StartIndex(h.time, now);
    forall c | c in cells
      ensures exists i :: start <= i < |h.time| && c.time == h.time[i]
    {
      var j :| 0 <= j < |cells| && cells[j] == c;
      assert c.time == h.time[start + j];
    }
  }

  /** With aligned arrays every shown cell has all its readings. */
  lemma AlignedWindowIsDefined(h: Hourly, now: int)
    requires HourlyAligned(h)
    ensures forall c :: c in Window(h, now) ==>
      c.temperature.Some? && c.code.Some? && c.isDay.Some?
  {
    var cells := Window(h, now);
    forall c | c in cells
      ensures c.temperature.Some? && c.code.Some? && c.isDay.Some?
    {
      var j :| 0 <= j < |cells| && cells[j] == c;
    }
  }

  /** Whenever at least 24 hours remain from the start, the strip is full. */
  lemma WindowFullWhenDataLasts(h: Hourly, now: int)
    requires StartIndex(h.time, now) + WindowSize <= |h.time|
    ensures |Window(h, now)| == WindowSize
  {
  }
}

=== FILE: js.dfy ===
/** JavaScript value semantics the application relies on: values that may be
    `undefined`, promises that resolve or reject, truthiness of strings, the
    `||` defaulting idiom, `String.prototype.trim` and `String(n)` for a
    natural number. */
module Js {

  /** A value that may be `undefined` (or `null`). */
  datatype Option<+T> = None | Some(value: T)

  /** The settled state of a promise: resolved with a value, or rejected with
      an error whose `message` may be absent. */
  datatype Outcome<+T> = Resolved(value: T) | Rejected(message: Option<string>)

  /** A string-or-undefined is truthy iff it is present and non-empty. */
  predicate Truthy(s: Option<string>) {
    s.Some? && s.value != ""
  }

  /** `a || fallback` where the fallback is a string. */
  function Or(a: Option<string>, fallback: string): string {
    if Truthy(a) then a.value else fallback
  }

  /** `a || b` where both sides may be undefined. */
  function OrElse(a: Option<string>, b: Option<string>): Option<string> {
    if Truthy(a) then a else b
  }

  /** `a || fallback`: the result is non-empty whenever the fallback is. */
  lemma OrNonEmpty(a: Option<string>, fallback: string)
    requires fallback != ""
    ensures Or(a, fallback) != ""
  {
  }

  // ---------------------------------------------------------------------------
  // String.prototype.trim

  /** WhiteSpace and LineTerminator code points of ECMAScript (section 12.2
      and 12.3 of ECMA-262): TAB, VT, FF, ZWNBSP, the space separators of
      category Zs, LF, CR, LS and PS. */
  predicate IsSpace(c: char) {
    || c == '\t' || c == '\n' || c == '\U{000B}' || c == '\U{000C}' || c == '\r'
    || c == ' ' || c == '\U{00A0}' || c == '\U{1680}'
    || ('\U{2000}' <= c <= '\U{200A}')
    || c == '\U{2028}' || c == '\U{2029}' || c == '\U{202F}' || c == '\U{205F}'
    || c == '\U{3000}' || c == '\U{FEFF}'
  }

  predicate AllSpace(s: string) {
    forall k :: 0 <= k < |s| ==> IsSpace(s[k])
  }

  /** The index of the first non-white-space character at or after `i`,
      or `|s|` when there is none. */
  function SkipSpace(s: string, i: nat): (j: nat)
    requires i <= |s|
    ensures i <= j <= |s|
    ensures forall k :: i <= k < j ==> IsSpace(s[k])
    ensures j < |s| ==> !IsSpace(s[j])
    decreases |s| - i
  {
    if i < |s| && IsSpace(s[i]) then SkipSpace(s, i + 1) else i
  }

  /** The end of `s[lo..hi]` once its trailing white space is dropped. */
  function SkipSpaceBack(s: string, lo: nat, hi: nat): (e: nat)
    requires lo <= hi <= |s|
    ensures lo <= e <= hi
    ensures forall k :: e <= k < hi ==> IsSpace(s[k])
    ensures e > lo ==> !IsSpace(s[e - 1])
  {
    if hi > lo && IsSpace(s[hi - 1]) then SkipSpaceBack(s, lo, hi - 1) else hi
  }

  /** `r` occurs in `s` at index `i` with only white space before and
      after it. */
  predicate SpaceAround(s: string, i: nat, r: string) {
    && i + |r| <= |s|
    && r == s[i..i + |r|]
    && (forall k :: 0 <= k < i ==> IsSpace(s[k]))
    && (forall k :: i + |r| <= k < |s| ==> IsSpace(s[k]))
  }

  /** `s.trim()`: the infix of `s` left after dropping the white space at
      both ends. It neither starts nor ends with white space, everything
      dropped before and after it is white space, and it is empty exactly
      when `s` is all white space. */
  function Trim(s: string): (r: string)
    ensures |r| <= |s|
    ensures exists i :: SpaceAround(s, i, r)
    ensures r != [] ==> !IsSpace(r[0]) && !IsSpace(r[|r| - 1])
    ensures r == [] <==> AllSpace(s)
  {
    var i := SkipSpace(s, 0);
    var e := SkipSpaceBack(s, i, |s|);
    assert e > i ==> !AllSpace(s) by {
      if e > i {
        assert !IsSpace(s[e - 1]);
      }
    }
    assert SpaceAround(s, i, s[i..e]);
    s[i..e]
  }

  /** Trimming an already trimmed string changes nothing. */
  lemma TrimIdempotent(s: string)
    ensures Trim(Trim(s)) == Trim(s)
  {
    var r := Trim(s);
    if r != [] {
      assert SkipSpace(r, 0) == 0;
      assert SkipSpaceBack(r, 0, |r|) == |r|;
    }
  }

  // ---------------------------------------------------------------------------
  // String.prototype.length

  /** The UTF-16 code units of one character: two for a character outside
      the Basic Multilingual Plane (a surrogate pair), else one. */
  function Utf16Units(c: char): nat {
    if c as int >= 0x1_0000 then 2 else 1
  }

  /** `s.length`, which counts UTF-16 code units rather than characters: it
      lies between the number of characters and twice that, and equals the
      number of characters exactly when every character is in the Basic
      Multilingual Plane. */
  function Utf16Length(s: string): (n: nat)
    ensures |s| <= n <= 2 * |s|
    ensures n == |s| <==> forall k :: 0 <= k < |s| ==> s[k] as int < 0x1_0000
  {
    if s == [] then 0
    else
      var n := Utf16Units(s[0]) + Utf16Length(s[1..]);
      assert forall k :: 1 <= k < |s| ==> s[k] == s[1..][k - 1];
      n
  }

  // ---------------------------------------------------------------------------
  // String(n) for a natural number

  function Digit(d: nat): char
    requires d < 10
  {
    "0123456789"[d]
  }

  predicate IsDigit(c: char) {
    '0' <= c <= '9'
  }

  /** The decimal rendering of `n`, as template literals render a number:
      digits only, with no leading zero unless `n` is zero. */
  function NatToDecimal(n: nat): (r: string)
    ensures r != []
    ensures forall k :: 0 <= k < |r| ==> IsDigit(r[k])
    ensures r[0] == '0' <==> n == 0
  {
    if n < 10 then [Digit(n)] else NatToDecimal(n / 10) + [Digit(n % 10)]
  }

  /** The number a string of decimal digits denotes. */
  function DecimalValue(s: string): nat
    requires forall k :: 0 <= k < |s| ==> IsDigit(s[k])
  {
    if s == [] then 0
    else
      var last := s[|s| - 1];
      assert IsDigit(last);
      10 * DecimalValue(s[..|s| - 1]) + ((last as int) - ('0' as int))
  }

  /** Reading back the decimal rendering of `n` gives `n`. */
  lemma {:induction false} DecimalRoundTrip(n: nat)
    ensures DecimalValue(NatToDecimal(n)) == n
  {
    if n >= 10 {
      var r := NatToDecimal(n);
      assert r[..|r| - 1] == NatToDecimal(n / 10);
      DecimalRoundTrip(n / 10);
    }
  }
}

=== FILE: js_array.dfy ===
/** The `Array.prototype` operations the application uses, over Dafny
    sequences: reading an index (which yields `undefined` out of range),
    `findIndex`, `some`, `filter`, `slice`, and the filter-by-first-index idiom
    `xs.filter((x, i, self) => i === self.findIndex(t => same(t, x)))`. */
module JsArray {
  import opened Js

  function Min(a: int, b: int): int { if a <= b then a else b }
  function Max(a: int, b: int): int { if a <= b then b else a }

  /** `xs[k]`: the element, or `undefined` when `k` is out of range. */
  function At<T>(xs: seq<T>, k: int): (r: Option<T>)
    ensures r.Some? <==> 0 <= k < |xs|
    ensures r.Some? ==> r.value == xs[k]
  {
    if 0 <= k < |xs| then Some(xs[k]) else None
  }

  /** `xs.findIndex(p)`: the first index whose element satisfies `p`, or -1. */
  function FindIndex<T>(xs: seq<T>, p: T -> bool): (k: int)
    ensures -1 <= k < |xs|
    ensures 0 <= k ==> p(xs[k])
    ensures 0 <= k ==> forall j :: 0 <= j < k ==> !p(xs[j])
    ensures k == -1 <==> forall j :: 0 <= j < |xs| ==> !p(xs[j])
  {
    if xs == [] then -1
    else if p(xs[0]) then 0
    else
      var k := FindIndex(xs[1..], p);
      if k == -1 then -1 else k + 1
  }

  /** `findIndex` depends only on which elements satisfy the predicate. */
  lemma FindIndexExtensional<T>(xs: seq<T>, p: T -> bool, q: T -> bool)
    requires forall j :: 0 <= j < |xs| ==> p(xs[j]) == q(xs[j])
    ensures FindIndex(xs, p) == FindIndex(xs, q)
  {
  }

  /** `xs.some(p)`. */
  function Any<T>(xs: seq<T>, p: T -> bool): (r: bool)
    ensures r <==> exists j :: 0 <= j < |xs| && p(xs[j])
  {
    if xs == [] then false else p(xs[0]) || Any(xs[1..], p)
  }

  /** `xs.slice(start, end)` for non-negative bounds: both bounds are clamped
      to the length, and an empty range yields the empty array. */
  function Slice<T>(xs: seq<T>, start: nat, end: nat): (r: seq<T>)
    ensures |r| == Max(0, Min(end, |xs|) - start)
    ensures forall i :: 0 <= i < |r| ==> r[i] == xs[start + i]
  {
    var a := Min(start, |xs|);
    var b := Min(end, |xs|);
    if a < b then xs[a..b] else []
  }

  // ---------------------------------------------------------------------------
  // Subsequences

  /** `r` is `xs` with some elements removed and the rest kept in order. */
  predicate IsSubsequence<T(==)>(r: seq<T>, xs: seq<T>)
    decreases |xs|
  {
    if r == [] then true
    else if xs == [] then false
    else if r[0] == xs[0] then IsSubsequence(r[1..], xs[1..])
    else IsSubsequence(r, xs[1..])
  }

  lemma {:induction false} SubsequenceDropHead<T>(r: seq<T>, xs: seq<T>)
    requires r != [] && IsSubsequence(r, xs)
    ensures IsSubsequence(r[1..], xs)
    decreases |xs|, 0
  {
    if r[0] == xs[0] {
      SubsequenceCons(xs[0], r[1..], xs[1..]);
      assert [xs[0]] + xs[1..] == xs;
    } else {
      SubsequenceDropHead(r, xs[1..]);
      SubsequenceCons(xs[0], r[1..], xs[1..]);
      assert [xs[0]] + xs[1..] == xs;
    }
  }

  /** Putting an element in front keeps a subsequence a subsequence. */
  lemma {:induction false} SubsequenceCons<T>(x: T, r: seq<T>, xs: seq<T>)
    requires IsSubsequence(r, xs)
    ensures IsSubsequence(r, [x] + xs)
    decreases |xs|, 1
  {
    var ys := [x] + xs;
    assert ys[1..] == xs;
    if r != [] && r[0] == x {
      SubsequenceDropHead(r, xs);
    }
  }

  /** Every element of a subsequence occurs in the original sequence. */
  lemma {:induction false} SubsequenceMembers<T>(r: seq<T>, xs: seq<T>)
    requires IsSubsequence(r, xs)
    ensures forall i :: 0 <= i < |r| ==> r[i] in xs
    decreases |xs|
  {
    if r != [] {
      if r[0] == xs[0] {
        SubsequenceMembers(r[1..], xs[1..]);
        forall i | 1 <= i < |r| ensures r[i] in xs {
          assert r[i] == r[1..][i - 1];
        }
      } else {
        SubsequenceMembers(r, xs[1..]);
      }
    }
  }

  /** A relation that holds between every earlier and every later element of
      `xs`. */
  ghost predicate Pairwise<T>(xs: seq<T>, rel: (T, T) -> bool) {
    forall i, j :: 0 <= i < j < |xs| ==> rel(xs[i], xs[j])
  }

  /** Removing elements cannot break a pairwise relation. */
  lemma {:induction false} SubsequencePairwise<T>(r: seq<T>, xs: seq<T>, rel: (T, T) -> bool)
    requires IsSubsequence(r, xs) && Pairwise(xs, rel)
    ensures Pairwise(r, rel)
    decreases |xs|
  {
    if r != [] {
      assert Pairwise(xs[1..], rel) by {
        forall i, j | 0 <= i < j < |xs| - 1 ensures rel(xs[1..][i], xs[1..][j]) {
          assert rel(xs[i + 1], xs[j + 1]);
        }
      }
      if r[0] == xs[0] {
        SubsequencePairwise(r[1..], xs[1..], rel);
        SubsequenceMembers(r[1..], xs[1..]);
        forall i, j | 0 <= i < j < |r| ensures rel(r[i], r[j]) {
          if i == 0 {
            assert r[j] == r[1..][j - 1];
            var k :| 0 <= k < |xs[1..]| && xs[1..][k] == r[j];
            assert rel(xs[0], xs[k + 1]);
          } else {
            assert r[i] == r[1..][i - 1] && r[j] == r[1..][j - 1];
          }
        }
      } else {
        SubsequencePairwise(r, xs[1..], rel);
      }
    }
  }

  // ---------------------------------------------------------------------------
  // filter

  /** `xs.filter(p)`: the elements satisfying `p`, each kept as often as it
      occurs, in their original order. */
  function Filter<T(==)>(xs: seq<T>, p: T -> bool): (r: seq<T>)
    ensures IsSubsequence(r, xs)
    ensures forall i :: 0 <= i < |r| ==> p(r[i])
    ensures multiset(r) <= multiset(xs)
    ensures forall x | x in xs :: multiset(r)[x] == if p(x) then multiset(xs)[x] else 0
  {
    if xs == [] then []
    else
      var rest := Filter(xs[1..], p);
      assert xs == [xs[0]] + xs[1..];
      if p(xs[0]) then [xs[0]] + rest
      else
        SubsequenceCons(xs[0], rest, xs[1..]);
        rest
  }

  /** A filter that every element passes returns the array unchanged. */
  lemma {:induction false} FilterKeepsAll<T>(xs: seq<T>, p: T -> bool)
    requires forall i :: 0 <= i < |xs| ==> p(xs[i])
    ensures Filter(xs, p) == xs
  {
    if xs != [] {
      FilterKeepsAll(xs[1..], p);
      assert [xs[0]] + xs[1..] == xs;
    }
  }

  /** Concatenation is associative. */
  lemma AppendAssociative<T>(a: seq<T>, b: seq<T>, c: seq<T>)
    ensures a + (b + c) == (a + b) + c
  {
  }

  /** The head and tail of a concatenation with a non-empty front part. */
  lemma AppendTail<T>(xs: seq<T>, ys: seq<T>)
    requires xs != []
    ensures (xs + ys)[0] == xs[0] && (xs + ys)[1..] == xs[1..] + ys
  {
  }

  /** A non-empty array filters to its tested head followed by its
      filtered tail. */
  lemma FilterHead<T>(xs: seq<T>, p: T -> bool)
    requires xs != []
    ensures Filter(xs, p) == (if p(xs[0]) then [xs[0]] else []) + Filter(xs[1..], p)
  {
  }

  /** Filtering a concatenation filters each part. */
  lemma {:induction false} FilterAppend<T>(xs: seq<T>, ys: seq<T>, p: T -> bool)
    ensures Filter(xs + ys, p) == Filter(xs, p) + Filter(ys, p)
  {
    if xs != [] {
      AppendTail(xs, ys);
      FilterAppend(xs[1..], ys, p);
      FilterHead(xs + ys, p);
      FilterHead(xs, p);
      AppendAssociative(if p(xs[0]) then [xs[0]] else [], Filter(xs[1..], p), Filter(ys, p));
    } else {
      assert xs + ys == ys;
    }
  }

  // ---------------------------------------------------------------------------
  // First-occurrence deduplication

  /** Element `i` is the first one `same` relates it to, i.e.
      `i === xs.findIndex(t => same(t, xs[i]))`. */
  predicate IsFirst<T>(xs: seq<T>, same: (T, T) -> bool, i: nat)
    requires i < |xs|
  {
    var c := xs[i];
    FindIndex(xs, t => same(t, c)) == i
  }

  /** An element that is first under `same` is related to no earlier one. */
  lemma FirstHasNoEarlierRelative<T>(xs: seq<T>, same: (T, T) -> bool, i: nat)
    requires i < |xs| && IsFirst(xs, same, i)
    ensures forall j :: 0 <= j < i ==> !same(xs[j], xs[i])
  {
    var c := xs[i];
    var p := t => same(t, c);
    forall j | 0 <= j < i ensures !same(xs[j], xs[i]) {
      assert !p(xs[j]);
    }
  }

  /** `IsFirst` spelled out: the element is related to itself and to no
      earlier element. */
  lemma IsFirstMeans<T>(xs: seq<T>, same: (T, T) -> bool, i: nat)
    requires i < |xs|
    ensures IsFirst(xs, same, i) <==> same(xs[i], xs[i]) && forall j :: 0 <= j < i ==> !same(xs[j], xs[i])
  {
    var c := xs[i];
    var p := t => same(t, c);
    var k := FindIndex(xs, p);
    if same(xs[i], xs[i]) && forall j :: 0 <= j < i ==> !same(xs[j], xs[i]) {
      assert p(xs[i]);
    } else if k == i {
      FirstHasNoEarlierRelative(xs, same, i);
    }
  }

  /** The indices, from `i` on, of the elements that are first under
      `same`, in increasing order; `FirstIndicesComplete` shows that none
      is missing. */
  function FirstIndices<T>(xs: seq<T>, same: (T, T) -> bool, i: nat): (f: seq<nat>)
    requires i <= |xs|
    ensures forall j :: 0 <= j < |f| ==> i <= f[j] < |xs| && IsFirst(xs, same, f[j])
    ensures forall j, j' :: 0 <= j < j' < |f| ==> f[j] < f[j']
    decreases |xs| - i
  {
    if i == |xs| then []
    else if IsFirst(xs, same, i) then [i] + FirstIndices(xs, same, i + 1)
    else FirstIndices(xs, same, i + 1)
  }

  /** Every index from `i` on that is first is listed. */
  lemma {:induction false} FirstIndicesComplete<T>(xs: seq<T>, same: (T, T) -> bool, i: nat)
    requires i <= |xs|
    ensures forall k :: i <= k < |xs| && IsFirst(xs, same, k) ==> k in FirstIndices(xs, same, i)
    decreases |xs| - i
  {
    if i < |xs| {
      FirstIndicesComplete(xs, same, i + 1);
    }
  }

  /** The deduplicating filter applied from index `i` on. */
  function DedupFrom<T(==)>(xs: seq<T>, same: (T, T) -> bool, i: nat): (r: seq<T>)
    requires i <= |xs|
    ensures IsSubsequence(r, xs[i..])
    ensures i < |xs| && IsFirst(xs, same, i) ==> r != [] && r[0] == xs[i]
    decreases |xs| - i
  {
    if i == |xs| then []
    else
      var rest := DedupFrom(xs, same, i + 1);
      assert xs[i..] == [xs[i]] + xs[i + 1..];
      if IsFirst(xs, same, i) then [xs[i]] + rest
      else
        SubsequenceCons(xs[i], rest, xs[i + 1..]);
        rest
  }

  /** No element kept from index `i` on is related to an element before `i`. */
  lemma {:induction false} DedupFromFresh<T>(xs: seq<T>, same: (T, T) -> bool, i: nat)
    requires i <= |xs|
    ensures forall b, j :: 0 <= b < |DedupFrom(xs, same, i)| && 0 <= j < i ==>
      !same(xs[j], DedupFrom(xs, same, i)[b])
    decreases |xs| - i
  {
    if i < |xs| {
      DedupFromFresh(xs, same, i + 1);
      if IsFirst(xs, same, i) {
        FirstHasNoEarlierRelative(xs, same, i);
        var r, rest := DedupFrom(xs, same, i), DedupFrom(xs, same, i + 1);
        assert r == [xs[i]] + rest;
        forall b, j | 0 <= b < |r| && 0 <= j < i ensures !same(xs[j], r[b]) {
          if b > 0 { assert r[b] == rest[b - 1]; }
        }
      }
    }
  }

  /** No kept element is related to a later kept element. */
  lemma {:induction false} DedupFromDistinct<T>(xs: seq<T>, same: (T, T) -> bool, i: nat)
    requires i <= |xs|
    ensures Pairwise(DedupFrom(xs, same, i), (a, b) => !same(a, b))
    decreases |xs| - i
  {
    if i < |xs| {
      DedupFromDistinct(xs, same, i + 1);
      if IsFirst(xs, same, i) {
        DedupFromFresh(xs, same, i + 1);
        var r, rest := DedupFrom(xs, same, i), DedupFrom(xs, same, i + 1);
        assert r == [xs[i]] + rest;
        forall a, b | 0 <= a < b < |r| ensures !same(r[a], r[b]) {
          assert r[b] == rest[b - 1];
          if a > 0 {
            assert r[a] == rest[a - 1];
          }
        }
      }
    }
  }

  /** Every element that is first under `same` is kept. */
  lemma {:induction false} DedupFromComplete<T>(xs: seq<T>, same: (T, T) -> bool, i: nat)
    requires i <= |xs|
    ensures forall k :: i <= k < |xs| && IsFirst(xs, same, k) ==> xs[k] in DedupFrom(xs, same, i)
    decreases |xs| - i
  {
    if i < |xs| {
      DedupFromComplete(xs, same, i + 1);
      var r, rest := DedupFrom(xs, same, i), DedupFrom(xs, same, i + 1);
      assert IsFirst(xs, same, i) ==> r == [xs[i]] + rest;
    }
  }

  /** Every element kept from index `i` on is an element at or after `i`
      that is first under `same`. */
  lemma {:induction false} DedupFromOnlyFirsts<T>(xs: seq<T>, same: (T, T) -> bool, i: nat)
    requires i <= |xs|
    ensures forall x :: x in DedupFrom(xs, same, i) ==>
      exists k :: i <= k < |xs| && xs[k] == x && IsFirst(xs, same, k)
    decreases |xs| - i
  {
    if i < |xs| {
      DedupFromOnlyFirsts(xs, same, i + 1);
      var r, rest := DedupFrom(xs, same, i), DedupFrom(xs, same, i + 1);
      if IsFirst(xs, same, i) {
        assert r == [xs[i]] + rest;
        forall x | x in r
          ensures exists k :: i <= k < |xs| && xs[k] == x && IsFirst(xs, same, k)
        {
          if x != xs[i] {
            assert x in rest;
          }
        }
      }
    }
  }

  /** Two relations that agree on the elements of `xs` keep the same
      elements from index `i` on. */
  lemma {:induction false} DedupFromCongruent<T>(xs: seq<T>, s1: (T, T) -> bool, s2: (T, T) -> bool, i: nat)
    requires i <= |xs|
    requires forall a, b :: 0 <= a < |xs| && 0 <= b < |xs| ==> s1(xs[a], xs[b]) == s2(xs[a], xs[b])
    ensures DedupFrom(xs, s1, i) == DedupFrom(xs, s2, i)
    decreases |xs| - i
  {
    if i < |xs| {
      DedupFromCongruent(xs, s1, s2, i + 1);
      var c := xs[i];
      forall j | 0 <= j < |xs| ensures s1(xs[j], c) == s2(xs[j], c) {
        assert s1(xs[j], xs[i]) == s2(xs[j], xs[i]);
      }
      FindIndexExtensional(xs, t => s1(t, c), t => s2(t, c));
      assert IsFirst(xs, s1, i) == IsFirst(xs, s2, i);
    }
  }

  /** The kept elements are the elements at the first indices, in order. */
  lemma {:induction false} DedupFromIndexed<T>(xs: seq<T>, same: (T, T) -> bool, i: nat)
    requires i <= |xs|
    ensures var r, f := DedupFrom(xs, same, i), FirstIndices(xs, same, i);
      |r| == |f| && forall j :: 0 <= j < |r| ==> r[j] == xs[f[j]]
    decreases |xs| - i
  {
    if i < |xs| {
      DedupFromIndexed(xs, same, i + 1);
      DedupFromStep(xs, same, i);
      if IsFirst(xs, same, i) {
        IndexedCons(xs, DedupFrom(xs, same, i + 1), FirstIndices(xs, same, i + 1), i);
      }
    }
  }

  /** One step of both recursions: index `i` is kept by the filter and
      listed among the first indices exactly when it is first. */
  lemma DedupFromStep<T>(xs: seq<T>, same: (T, T) -> bool, i: nat)
    requires i < |xs|
    ensures IsFirst(xs, same, i) ==>
      && DedupFrom(xs, same, i) == [xs[i]] + DedupFrom(xs, same, i + 1)
      && FirstIndices(xs, same, i) == [i] + FirstIndices(xs, same, i + 1)
    ensures !IsFirst(xs, same, i) ==>
      && DedupFrom(xs, same, i) == DedupFrom(xs, same, i + 1)
      && FirstIndices(xs, same, i) == FirstIndices(xs, same, i + 1)
  {
  }

  /** Reading `xs` at a list of indices commutes with putting one more
      index in front. */
  lemma IndexedCons<T>(xs: seq<T>, rest: seq<T>, g: seq<nat>, i: nat)
    requires i < |xs|
    requires |rest| == |g| && forall j :: 0 <= j < |g| ==> g[j] < |xs| && rest[j] == xs[g[j]]
    ensures var r, f := [xs[i]] + rest, [i] + g;
      |r| == |f| && forall j :: 0 <= j < |r| ==> f[j] < |xs| && r[j] == xs[f[j]]
  {
    var r, f := [xs[i]] + rest, [i] + g;
    forall j | 0 <= j < |r|
      ensures f[j] < |xs| && r[j] == xs[f[j]]
    {
      if j > 0 {
        assert r[j] == rest[j - 1] && f[j] == g[j - 1];
      }
    }
  }


  /** `xs.filter((x, i, self) => i === self.findIndex(t => same(t, x)))`:
      keeps, in order, exactly the elements at the indices that are first
      under `same`. No two kept elements are related (earlier to later), and
      the first element is always kept when `same` is reflexive on it. */
  function Dedup<T(==)>(xs: seq<T>, same: (T, T) -> bool): (r: seq<T>)
    ensures var f := FirstIndices(xs, same, 0);
      |r| == |f| && forall j :: 0 <= j < |r| ==> r[j] == xs[f[j]]
    ensures IsSubsequence(r, xs)
    ensures forall a, b :: 0 <= a < b < |r| ==> !same(r[a], r[b])
    ensures forall k :: 0 <= k < |xs| && IsFirst(xs, same, k) ==> xs[k] in r
    ensures forall x :: x in r ==> exists k :: 0 <= k < |xs| && xs[k] == x && IsFirst(xs, same, k)
    ensures xs != [] && same(xs[0], xs[0]) ==> r != [] && r[0] == xs[0]
  {
    assert xs[0..] == xs;
    var r := DedupFrom(xs, same, 0);
    DedupFromDistinct(xs, same, 0);
    DedupFromComplete(xs, same, 0);
    DedupFromOnlyFirsts(xs, same, 0);
    DedupFromIndexed(xs, same, 0);
    assert xs != [] && same(xs[0], xs[0]) ==> IsFirst(xs, same, 0);
    r
  }

  /** Relations that agree on the elements of `xs` deduplicate it alike. */
  lemma DedupCongruent<T>(xs: seq<T>, s1: (T, T) -> bool, s2: (T, T) -> bool)
    requires forall a, b :: 0 <= a < |xs| && 0 <= b < |xs| ==> s1(xs[a], xs[b]) == s2(xs[a], xs[b])
    ensures Dedup(xs, s1) == Dedup(xs, s2)
  {
    DedupFromCongruent(xs, s1, s2, 0);
  }
}

=== FILE: mascot.dfy ===
/** The decision logic the cat and the rabbit mascots compute identically
    from the weather code, the temperature and the day flag: whether the
    mascot sleeps, its base body animation, its face and its accessories. */
module Mascot {
  import opened Wmo

  /** Body animations. `HappyWiggle` and `Hop` only come from idle actions. */
  datatype Anim = Float | ShiverFast | Shiver | Pant | Breathe | HappyWiggle | Hop

  datatype Face = Asleep | Scared | Sunglasses | Normal

  predicate IsCold(temperature: real) { temperature < 12.0 }
  predicate IsFreezing(temperature: real) { temperature < 0.0 }
  predicate IsHot(temperature: real) { temperature > 25.0 }

  /** Asleep at night unless a thunderstorm keeps it awake. */
  predicate Sleeping(code: int, isDay: bool) {
    !isDay && !IsThunder(code)
  }

  /** First match of: sleeping -> float; thunder or freezing -> fast shiver;
      cold -> shiver; hot -> pant; otherwise breathe. */
  function BaseAnimation(code: int, temperature: real, isDay: bool): (a: Anim)
    ensures a == Float <==> Sleeping(code, isDay)
    ensures a == ShiverFast <==> !Sleeping(code, isDay) && (IsThunder(code) || temperature < 0.0)
    ensures a == Shiver <==> !Sleeping(code, isDay) && !IsThunder(code) && 0.0 <= temperature < 12.0
    ensures a == Pant <==> !Sleeping(code, isDay) && !IsThunder(code) && temperature > 25.0
    ensures a == Breathe <==>
      !Sleeping(code, isDay) && !IsThunder(code) && 12.0 <= temperature <= 25.0
    ensures a != HappyWiggle && a != Hop
  {
    if Sleeping(code, isDay) then Float
    else if IsThunder(code) || IsFreezing(temperature) then ShiverFast
    else if IsCold(temperature) then Shiver
    else if IsHot(temperature) then Pant
    else Breathe
  }

  /** First match of: sleeping -> closed eyes; thunder -> scared; mainly
      clear, day and hot -> sunglasses; otherwise the normal eyes. */
  function FaceFor(code: int, temperature: real, isDay: bool): (f: Face)
    ensures f == Asleep <==> Sleeping(code, isDay)
    ensures f == Scared <==> IsThunder(code)
    ensures f == Sunglasses <==> MainlyClear(code) && isDay && temperature > 25.0
    ensures f == Normal <==>
      !Sleeping(code, isDay) && !IsThunder(code) && !(MainlyClear(code) && isDay && temperature > 25.0)
  {
    if Sleeping(code, isDay) then Asleep
    else if IsThunder(code) then Scared
    else if MainlyClear(code) && isDay && IsHot(temperature) then Sunglasses
    else Normal
  }

  /** The scarf is worn when cold or snowing. */
  predicate WearsScarf(code: int, temperature: real) {
    IsCold(temperature) || IsSnow(code)
  }

  /** The umbrella is held when it rains. */
  predicate HoldsUmbrella(code: int) {
    IsRain(code)
  }

  /** Freezing weather never gives the plain shiver: a freezing mascot that
      is awake always shivers fast. */
  lemma FreezingNeverPlainShiver(code: int, temperature: real, isDay: bool)
    requires IsFreezing(temperature)
    ensures BaseAnimation(code, temperature, isDay) != Shiver
    ensures !Sleeping(code, isDay) ==> BaseAnimation(code, temperature, isDay) == ShiverFast
  {
  }

  /** A thunderstorm always keeps the mascot awake, shivering and scared. */
  lemma ThunderKeepsAwake(code: int, temperature: real, isDay: bool)
    requires IsThunder(code)
    ensures BaseAnimation(code, temperature, isDay) == ShiverFast
    ensures FaceFor(code, temperature, isDay) == Scared
  {
  }

  /** Scarf and umbrella are independent: cold rain shows both. */
  lemma ScarfAndUmbrellaTogether()
    ensures WearsScarf(61, 5.0) && HoldsUmbrella(61)
    ensures !WearsScarf(61, 15.0) && HoldsUmbrella(61)
  {
  }
}

=== FILE: outfit_widget.dfy ===
/** The outfit recommendation widget: one piece of advice, with its icon and
    localized caption, for the temperature, weather code and day flag. */
module OutfitWidget {
  import opened Wmo
  import opened Types

  /** The clothing icons (shared with the promo card). */
  datatype Garment = Umbrella | Scarf | Jacket | Shades | TShirt

  /** The six outcomes; two of them share the scarf icon. */
  datatype Advice = TakeUmbrella | BundleUp | ScarfNeeded | LightJacket | Sunglasses | LightClothes

  function Icon(a: Advice): Garment {
    match a
    case TakeUmbrella => Umbrella
    case BundleUp => Scarf
    case ScarfNeeded => Scarf
    case LightJacket => Jacket
    case Sunglasses => Shades
    case LightClothes => TShirt
  }

  function Caption(a: Advice, lang: Lang): string {
    match (a, lang)
    case (TakeUmbrella, Es) => "Lleva paraguas"
    case (TakeUmbrella, En) => "Take umbrella"
    case (BundleUp, Es) => "\U{00A1}Abr\U{00ED}gate mucho!"
    case (BundleUp, En) => "Bundle up!"
    case (ScarfNeeded, Es) => "Bufanda necesaria"
    case (ScarfNeeded, En) => "Scarf needed"
    case (LightJacket, Es) => "Chaqueta ligera"
    case (LightJacket, En) => "Light jacket"
    case (Sunglasses, Es) => "Gafas de sol"
    case (Sunglasses, En) => "Sunglasses"
    case (LightClothes, Es) => "Ropa ligera"
    case (LightClothes, En) => "Light clothes"
  }

  /** First match of: rain -> umbrella; snow -> bundle up; below 10 ->
      scarf; below 18 -> light jacket; mainly clear, above 22 and day ->
      sunglasses; otherwise light clothes. Each outcome is characterised
      here on its own, independently of the order of the tests. */
  function Choose(code: int, temperature: real, isDay: bool): (a: Advice)
    ensures a == TakeUmbrella <==> IsRain(code)
    ensures a == BundleUp <==> IsSnow(code)
    ensures a == ScarfNeeded <==> !IsRain(code) && !IsSnow(code) && temperature < 10.0
    ensures a == LightJacket <==> !IsRain(code) && !IsSnow(code) && 10.0 <= temperature < 18.0
    ensures a == Sunglasses <==> MainlyClear(code) && temperature > 22.0 && isDay
    ensures a == LightClothes <==>
      && !IsRain(code) && !IsSnow(code) && temperature >= 18.0
      && !(MainlyClear(code) && temperature > 22.0 && isDay)
  {
    if IsRain(code) then TakeUmbrella
    else if IsSnow(code) then BundleUp
    else if temperature < 10.0 then ScarfNeeded
    else if temperature < 18.0 then LightJacket
    else if MainlyClear(code) && temperature > 22.0 && isDay then Sunglasses
    else LightClothes
  }

  /** Rain means the umbrella whatever the temperature; freezing without
      rain means the scarf. */
  lemma RainBeatsTemperature(code: int, temperature: real, isDay: bool)
    ensures IsRain(code) ==> Icon(Choose(code, temperature, isDay)) == Umbrella
    ensures !IsRain(code) && temperature < 10.0 ==> Icon(Choose(code, temperature, isDay)) == Scarf
  {
  }
}

=== FILE: promo_card.dfy ===
/** The decorative clothing icon on the shareable promo card. It follows a
    shorter chain than the outfit widget: there is no jacket, and sunglasses
    need no heat. */
module PromoCard {
  import opened Wmo
  import opened OutfitWidget

  /** First match of: rain -> umbrella; snow or below 10 -> scarf; mainly
      clear by day -> sunglasses; otherwise t-shirt. */
  function PromoIcon(code: int, temperature: real, isDay: bool): (g: Garment)
    ensures g == Umbrella <==> IsRain(code)
    ensures g == Scarf <==> !IsRain(code) && (IsSnow(code) || temperature < 10.0)
    ensures g == Shades <==> MainlyClear(code) && isDay && temperature >= 10.0
    ensures g == TShirt <==>
      !IsRain(code) && !IsSnow(code) && temperature >= 10.0 && !(MainlyClear(code) && isDay)
    ensures g != Jacket
  {
    if IsRain(code) then Umbrella
    else if IsSnow(code) || temperature < 10.0 then Scarf
    else if MainlyClear(code) && isDay then Shades
    else TShirt
  }

  /** The card and the widget agree on the umbrella and on the scarf, and
      whenever the widget suggests sunglasses so does the card. */
  lemma PromoAgreesWithOutfit(code: int, temperature: real, isDay: bool)
    ensures (PromoIcon(code, temperature, isDay) == Umbrella) ==
            (Icon(Choose(code, temperature, isDay)) == Umbrella)
    ensures (PromoIcon(code, temperature, isDay) == Scarf) ==
            (Icon(Choose(code, temperature, isDay)) == Scarf)
    ensures Choose(code, temperature, isDay) == Sunglasses ==>
            PromoIcon(code, temperature, isDay) == Shades
  {
  }

  /** The converse fails: a clear, mild day gets sunglasses on the card but
      a jacket in the widget. */
  lemma PromoSunglassesWithoutHeat()
    ensures PromoIcon(0, 15.0, true) == Shades
    ensures Choose(0, 15.0, true) == LightJacket
  {
  }
}

=== FILE: rabbit_avatar.dfy ===
/** The rabbit mascot: the shared mascot logic plus the rabbit's own idle
    actions (a wave of the left paw, a hop, a nose wiggle) and its ears. The
    idle action is chosen at random by a timer; here it is an input. */
module RabbitAvatar {
  import opened Wmo
  import opened Mascot
  import CatAvatar

  /** The idle action currently playing; `Still` is the source's 'none'. */
  datatype Idle = Still | Wave | HopAction | Wiggle

  datatype Pose = Pose(
    body: Anim,
    face: Face,
    scarf: bool,
    umbrella: bool,
    earsTwitch: bool,
    leftEarAngle: int,
    rightEarAngle: int,
    leftPawWave: bool,
    noseWiggle: bool)

  /** The rabbit as drawn. A hop replaces the body animation
      unconditionally, even in sleep; the ears twitch only while awake and
      the right ear rests at 5 degrees under a thunderstorm, 10 otherwise;
      only the left paw waves; the nose wiggles only on the normal face. */
  function RabbitPose(code: int, temperature: real, isDay: bool, idle: Idle): (p: Pose)
    ensures p.body == Hop <==> idle == HopAction
    ensures p.body != HappyWiggle
    ensures idle != HopAction ==> p.body == BaseAnimation(code, temperature, isDay)
    ensures p.face == FaceFor(code, temperature, isDay)
    ensures p.earsTwitch <==> p.face != Asleep
    ensures p.leftEarAngle == -5
    ensures p.rightEarAngle == (if IsThunder(code) then 5 else 10)
    ensures p.leftPawWave <==> idle == Wave
    ensures p.noseWiggle <==> idle == Wiggle && p.face == Normal
    ensures p.scarf <==> temperature < 12.0 || IsSnow(code)
    ensures p.umbrella <==> IsRain(code)
  {
    var sleeping := Sleeping(code, isDay);
    var face := FaceFor(code, temperature, isDay);
    Pose(
      body := if idle == HopAction then Hop else BaseAnimation(code, temperature, isDay),
      face := face,
      scarf := WearsScarf(code, temperature),
      umbrella := HoldsUmbrella(code),
      earsTwitch := !sleeping,
      leftEarAngle := -5,
      rightEarAngle := if IsThunder(code) then 5 else 10,
      leftPawWave := idle == Wave,
      noseWiggle := idle == Wiggle && face == Normal)
  }

  /** Unlike the cat's wiggle, the rabbit's hop plays even while it sleeps. */
  lemma SleepingRabbitStillHops(code: int, temperature: real)
    requires !IsThunder(code)
    ensures RabbitPose(code, temperature, false, HopAction).body == Hop
    ensures RabbitPose(code, temperature, false, HopAction).face == Asleep
    ensures CatAvatar.CatPose(code, temperature, false, CatAvatar.Wiggle).body == Float
  {
  }

  /** With no idle action playing, cat and rabbit agree on body, face and
      accessories. */
  lemma MascotsAgreeWhenIdle(code: int, temperature: real, isDay: bool)
    ensures var c := CatAvatar.CatPose(code, temperature, isDay, CatAvatar.Still);
            var r := RabbitPose(code, temperature, isDay, Still);
            c.body == r.body && c.face == r.face && c.scarf == r.scarf && c.umbrella == r.umbrella
  {
  }
}

=== FILE: types.dfy ===
/** The record shapes the application passes around: a place, the current
    weather snapshot and the hourly and daily forecasts as parallel arrays.
    Timestamps are modelled as integers; temperatures, wind speeds and
    coordinates as exact reals. */
module Types {
  import opened Js

  /** The two interface languages. */
  datatype Lang = Es | En

  function Flip(lang: Lang): Lang {
    match lang
    case Es => En
    case En => Es
  }

  /** A place: from a search result, from geolocation, or a saved favorite
      carrying the nickname the user gave it. */
  datatype GeoLocation = GeoLocation(
    name: string,
    latitude: real,
    longitude: real,
    country: Option<string>,
    admin1: Option<string>,
    customName: Option<string>)

  /** The `current_weather` object. `apparent` is filled in by the weather
      client and may be `undefined`. `isDay` is 1 by day and 0 by night. */
  datatype CurrentWeather = CurrentWeather(
    temperature: real,
    windspeed: real,
    weathercode: int,
    isDay: int,
    time: int,
    apparent: Option<real>)

  /** Hourly forecast: parallel arrays, entry `i` of each describing the
      hour `time[i]`. */
  datatype Hourly = Hourly(
    time: seq<int>,
    temperature: seq<real>,
    weathercode: seq<int>,
    isDay: seq<int>,
    apparent: seq<real>)

  /** Daily forecast: parallel arrays, entry 0 being today. */
  datatype Daily = Daily(
    time: seq<int>,
    weathercode: seq<int>,
    temperatureMax: seq<real>,
    temperatureMin: seq<real>)

  /** A forecast response. The hourly block may be missing from a response. */
  datatype WeatherData = WeatherData(
    current: CurrentWeather,
    hourly: Option<Hourly>,
    daily: Daily)

  /** All the hourly arrays have the same length. */
  predicate HourlyAligned(h: Hourly) {
    && |h.temperature| == |h.time|
    && |h.weathercode| == |h.time|
    && |h.isDay| == |h.time|
    && |h.apparent| == |h.time|
  }

  /** All the daily arrays have the same length. */
  predicate DailyAligned(d: Daily) {
    && |d.weathercode| == |d.time|
    && |d.temperatureMax| == |d.time|
    && |d.temperatureMin| == |d.time|
  }
}

=== FILE: weather_icon.dfy ===
/** The weather icon: which picture is drawn for a weather code and a
    day/night flag, and the container size class. */
module WeatherIcon {
  import opened Wmo

  /** The categories the icon distinguishes. Here "clear" is code 0 only;
      code 1 counts as partly cloudy. */
  datatype Condition =
    | Thunder | Snow | Rain | Fog | Overcast | PartlyCloudy | Clear | Uncategorized

  /** Classifies a code by the icon's own predicates; the categories do not
      overlap, so the order of the tests does not matter. */
  function Classify(code: int): (c: Condition)
    ensures c == Thunder <==> IsThunder(code)
    ensures c == Snow <==> IsSnow(code)
    ensures c == Rain <==> IsRain(code)
    ensures c == Fog <==> IsFog(code)
    ensures c == Overcast <==> code == 3
    ensures c == PartlyCloudy <==> code == 1 || code == 2
    ensures c == Clear <==> ClearSky(code)
  {
    if IsThunder(code) then Thunder
    else if IsSnow(code) then Snow
    else if IsRain(code) then Rain
    else if IsFog(code) then Fog
    else if code == 3 then Overcast
    else if code == 1 || code == 2 then PartlyCloudy
    else if ClearSky(code) then Clear
    else Uncategorized
  }

  datatype Body = Sun | Moon

  /** What is drawn: a cloud with lightning, snow flakes, rain drops; fog
      lines; a grey overcast cloud; a cloud in front of the sun or moon; or
      the sun or moon alone. */
  datatype Art =
    | ThunderCloud | SnowCloud | RainCloud | FogLines | GreyCloud
    | CloudOver(behind: Body)
    | Bare(body: Body)

  /** `isDay` is the forecast's numeric flag and is read by truthiness. */
  predicate DayFlag(isDay: int) {
    isDay != 0
  }

  function DayOrNight(isDay: int): Body {
    if DayFlag(isDay) then Sun else Moon
  }

  /** The picture chosen by the priority chain thunder > snow > rain > fog >
      overcast > partly cloudy > clear > sun. The moon only ever appears at
      night and only for codes 0, 1 and 2; every uncategorised code shows the
      sun, even at night. */
  function Render(code: int, isDay: int): (a: Art)
    ensures a == ThunderCloud <==> IsThunder(code)
    ensures a == SnowCloud <==> IsSnow(code)
    ensures a == RainCloud <==> IsRain(code)
    ensures a == FogLines <==> IsFog(code)
    ensures a == GreyCloud <==> code == 3
    ensures a == CloudOver(Sun) <==> (code == 1 || code == 2) && DayFlag(isDay)
    ensures a == CloudOver(Moon) <==> (code == 1 || code == 2) && !DayFlag(isDay)
    ensures a == Bare(Moon) <==> code == 0 && !DayFlag(isDay)
    ensures a == Bare(Sun) <==> Classify(code) == Uncategorized || (code == 0 && DayFlag(isDay))
  {
    match Classify(code)
    case Thunder => ThunderCloud
    case Snow => SnowCloud
    case Rain => RainCloud
    case Fog => FogLines
    case Overcast => GreyCloud
    case PartlyCloudy => CloudOver(DayOrNight(isDay))
    case Clear => Bare(DayOrNight(isDay))
    case Uncategorized => Bare(Sun)
  }

  /** Codes outside every category (4-44, 46-47, 49-50, 68-70, 78-79, 83-84,
      87-94 and all negative codes) draw the sun by day and by night. */
  lemma UncategorizedIsSunEvenAtNight(code: int, isDay: int)
    requires (4 <= code <= 44) || code == 46 || code == 47 || code == 49 || code == 50
          || (68 <= code <= 70) || (78 <= code <= 79) || (83 <= code <= 84)
          || (87 <= code <= 94) || code < 0
    ensures Render(code, isDay) == Bare(Sun)
  {
  }

  /** The container sizes. */
  datatype Size = Sm | Md | Lg | Xl

  /** `sizeClasses[size] || sizeClasses.md`: a known size name selects its
      class, anything else falls back to the medium one. */
  function ContainerSize(size: string): (s: Size)
    ensures size == "sm" <==> s == Sm
    ensures size == "lg" <==> s == Lg
    ensures size == "xl" <==> s == Xl
    ensures s == Md <==> size != "sm" && size != "lg" && size != "xl"
  {
    if size == "sm" then Sm
    else if size == "md" then Md
    else if size == "lg" then Lg
    else if size == "xl" then Xl
    else Md
  }
}

=== FILE: weather_service.dfy ===
/** The weather client: city search, the forecast with its derived
    "feels like" temperature, and the reverse-geocoded place name. Each
    network exchange is an input `Outcome`: `Rejected` stands for any failure
    of the fetch or of parsing its JSON. No failure escapes to the caller. */
module WeatherService {
  import opened Js
  import opened JsArray
  import opened Types

  // ---------------------------------------------------------------------------
  // searchCity

  /** One entry of the geocoding response's `results` array. */
  datatype GeoResult = GeoResult(
    name: string,
    latitude: real,
    longitude: real,
    country: Option<string>,
    admin1: Option<string>)

  /** The geocoding response body; `results` is absent when nothing matched. */
  datatype SearchResponse = SearchResponse(results: Option<seq<GeoResult>>)

  /** The shortest query that is sent to the geocoder. */
  const MinQueryLength := 2

  function ToLocation(item: GeoResult): GeoLocation {
    GeoLocation(item.name, item.latitude, item.longitude, item.country, item.admin1, None)
  }

  /** Too short a query (counted in UTF-16 code units, as JavaScript's
      `length` does) gives no results without any request; a failed
      request or a response without results gives no results; otherwise
      every result becomes one location, in order, copying its name,
      coordinates, country and region and carrying no nickname. */
  function SearchCity(query: string, response: Outcome<SearchResponse>): (r: seq<GeoLocation>)
    ensures Utf16Length(query) < MinQueryLength ==> r == []
    ensures response.Rejected? || response.value.results.None? ==> r == []
    ensures Utf16Length(query) >= MinQueryLength && response.Resolved? && response.value.results.Some? ==>
      var items := response.value.results.value;
      && |r| == |items|
      && forall i :: 0 <= i < |r| ==>
           && r[i].name == items[i].name
           && r[i].latitude == items[i].latitude
           && r[i].longitude == items[i].longitude
           && r[i].country == items[i].country
           && r[i].admin1 == items[i].admin1
           && r[i].customName.None?
  {
    if Utf16Length(query) < MinQueryLength then []
    else match response
      case Rejected(_) => []
      case Resolved(SearchResponse(None)) => []
      case Resolved(SearchResponse(Some(items))) =>
        seq(|items|, i requires 0 <= i < |items| => ToLocation(items[i]))
  }

  // ---------------------------------------------------------------------------
  // getWeather and the current apparent temperature

  /** The hourly index whose apparent temperature stands for "now". It is
      the first hour whose timestamp equals the current snapshot's; failing
      that, the hour just before the first one later than the clock, or hour
      0 when the first hour is already later or no hour is. */
  function ApparentIndex(times: seq<int>, current: int, now: int): (k: nat)
    ensures (exists i :: 0 <= i < |times| && times[i] == current) ==>
      k < |times| && times[k] == current && forall j :: 0 <= j < k ==> times[j] != current
    ensures (forall i :: 0 <= i < |times| ==> times[i] != current) ==>
      || (k + 1 < |times| && times[k + 1] > now && forall j :: 0 <= j <= k ==> times[j] <= now)
      || (k == 0 && ((|times| > 0 && times[0] > now) || forall j :: 0 <= j < |times| ==> times[j] <= now))
  {
    var index := FindIndex(times, t => t == current);
    if index != -1 then index
    else
      var closest := FindIndex(times, t => t > now);
      if closest > 0 then closest - 1 else 0
  }

  /** The value stored as the current apparent temperature: the actual
      temperature when the hourly block is missing, otherwise the hourly
      apparent temperature at `ApparentIndex` (undefined if that array is
      too short). With aligned, non-empty hourly arrays it is always
      defined. */
  function ApparentTemperature(current: CurrentWeather, hourly: Option<Hourly>, now: int): (r: Option<real>)
    ensures hourly.None? ==> r == Some(current.temperature)
    ensures hourly.Some? && HourlyAligned(hourly.value) && |hourly.value.time| > 0 ==> r.Some?
    ensures hourly.Some? ==> forall k ::
      (&& 0 <= k < |hourly.value.time|
       && hourly.value.time[k] == current.time
       && (forall j :: 0 <= j < k ==> hourly.value.time[j] != current.time))
      ==> r == At(hourly.value.apparent, k)
  {
    match hourly
    case None => Some(current.temperature)
    case Some(h) => At(h.apparent, ApparentIndex(h.time, current.time, now))
  }

  /** When no hour matches the snapshot, the hour before the first future
      hour is used. */
  lemma ApparentBeforeFirstFuture(current: CurrentWeather, h: Hourly, now: int, k: nat)
    requires forall i :: 0 <= i < |h.time| ==> h.time[i] != current.time
    requires 0 < k < |h.time| && h.time[k] > now
    requires forall j :: 0 <= j < k ==> h.time[j] <= now
    ensures ApparentTemperature(current, Some(h), now) == At(h.apparent, k - 1)
  {
  }

  /** When no hour matches and the first hour is already in the future, or
      no hour is, hour 0 is used. */
  lemma ApparentDefaultsToFirstHour(current: CurrentWeather, h: Hourly, now: int)
    requires forall i :: 0 <= i < |h.time| ==> h.time[i] != current.time
    requires (|h.time| > 0 && h.time[0] > now) || forall j :: 0 <= j < |h.time| ==> h.time[j] <= now
    ensures ApparentTemperature(current, Some(h), now) == At(h.apparent, 0)
  {
  }

  /** An hourly block without apparent temperatures, such as one of empty
      arrays, leaves the value undefined: the fallback reads hour 0, which
      does not exist. */
  lemma ApparentUndefinedWithoutHours(current: CurrentWeather, h: Hourly, now: int)
    requires h.apparent == []
    ensures ApparentTemperature(current, Some(h), now) == None
  {
  }

  /** `getWeather`: a failed request gives no data; otherwise the response
      is returned unchanged except that the current snapshot carries the
      derived apparent temperature. */
  function GetWeather(response: Outcome<WeatherData>, now: int): (r: Option<WeatherData>)
    ensures response.Rejected? <==> r.None?
    ensures response.Resolved? ==>
      && r.value.hourly == response.value.hourly
      && r.value.daily == response.value.daily
      && r.value.current.temperature == response.value.current.temperature
      && r.value.current.weathercode == response.value.current.weathercode
      && r.value.current.isDay == response.value.current.isDay
      && r.value.current.time == response.value.current.time
      && r.value.current.windspeed == response.value.current.windspeed
      && r.value.current.apparent == ApparentTemperature(response.value.current, response.value.hourly, now)
      && (response.value.hourly.None? ==> r.value.current.apparent == Some(response.value.current.temperature))
  {
    match response
    case Rejected(_) => None
    case Resolved(data) =>
      var apparent := ApparentTemperature(data.current, data.hourly, now);
      Some(data.(current := data.current.(apparent := apparent)))
  }

  // ---------------------------------------------------------------------------
  // getReverseGeocoding

  /** The reverse-geocoding response fields the client reads. */
  datatype Place = Place(
    city: Option<string>,
    locality: Option<string>,
    principalSubdivision: Option<string>)

  /** The localized generic name of an unnamed place. */
  function DefaultLocationName(lang: Lang): string {
    match lang
    case Es => "Tu Ubicaci\U{00F3}n"
    case En => "Your Location"
  }

  /** The first non-empty of city, locality and region, else the localized
      generic name; a failed request also gives the generic name. The name
      is never empty. */
  function ReverseGeocodeName(response: Outcome<Place>, lang: Lang): (r: string)
    ensures r != ""
    ensures response.Rejected? ==> r == DefaultLocationName(lang)
    ensures response.Resolved? ==>
      var p := response.value;
      && (Truthy(p.city) ==> r == p.city.value)
      && (!Truthy(p.city) && Truthy(p.locality) ==> r == p.locality.value)
      && (!Truthy(p.city) && !Truthy(p.locality) && Truthy(p.principalSubdivision) ==>
            r == p.principalSubdivision.value)
      && (!Truthy(p.city) && !Truthy(p.locality) && !Truthy(p.principalSubdivision) ==>
            r == DefaultLocationName(lang))
  {
    match response
    case Rejected(_) => DefaultLocationName(lang)
    case Resolved(p) =>
      Or(OrElse(OrElse(p.city, p.locality), p.principalSubdivision), DefaultLocationName(lang))
  }
}

=== FILE: wmo.dfy ===
/** WMO weather interpretation codes (code table 4677), in the subset the
    Open-Meteo forecast serves. Every component that reacts to the weather
    re-derives the same rain, snow, thunderstorm and fog ranges from the
    integer code; they are defined here once. Components disagree on what
    "clear" means, so both notions are defined and each component uses the
    one its own source uses. */
module Wmo {

  /** Drizzle, freezing drizzle, rain, freezing rain (51-67) and rain
      showers (80-82). */
  predicate IsRain(code: int) {
    (51 <= code <= 67) || (80 <= code <= 82)
  }

  /** Snow fall, snow grains (71-77) and snow showers (85-86). */
  predicate IsSnow(code: int) {
    (71 <= code <= 77) || (85 <= code <= 86)
  }

  /** Thunderstorm, with or without hail: every code from 95 up. */
  predicate IsThunder(code: int) {
    code >= 95
  }

  /** Fog and depositing rime fog. */
  predicate IsFog(code: int) {
    code == 45 || code == 48
  }

  /** Clear sky only (code 0), as WeatherIcon and AtmosphericBackground read it. */
  predicate ClearSky(code: int) {
    code == 0
  }

  /** Clear sky or mainly clear (codes 0 and 1), as the mascots, the outfit
      widget and the promo card read it. */
  predicate MainlyClear(code: int) {
    code == 0 || code == 1
  }

  /** No code is in two of the precipitation/fog categories. */
  lemma CategoriesDisjoint(code: int)
    ensures !(IsRain(code) && IsSnow(code))
    ensures !(IsRain(code) && IsThunder(code))
    ensures !(IsRain(code) && IsFog(code))
    ensures !(IsSnow(code) && IsThunder(code))
    ensures !(IsSnow(code) && IsFog(code))
    ensures !(IsThunder(code) && IsFog(code))
    ensures MainlyClear(code) ==> !IsRain(code) && !IsSnow(code) && !IsThunder(code) && !IsFog(code)
  {
  }
}
